=== FILE: README.md ===
# KBestSearch in Dafny

A model of `kbestsearch.py`, the K-Best Search hyper-parameter optimiser. It
searches a space of choices, each with a list of alternatives.

- A *candidate* picks one alternative per choice. It is identified by its
  string `choice-alternative_choice-alternative…`.
- A first phase evaluates random candidates. It keeps those scoring at or above
  a threshold in a population sorted by score, until the population holds `k`.
- A second phase samples from a softmax over rank-weighted counts of the
  population's alternatives.
  - A new candidate replaces the worst entry only when it scores strictly
    higher.
  - After `k` unsuccessful trials in a row the temperature drops by a fixed
    amount, or the search stops if it is at the end temperature.
- The best candidate ever seen is tracked on strict improvement, starting from
  score 0.0 and no candidate.

The model is functional:

- Python dicts are insertion-ordered sequences of items (`OrderedDict`).
- The random draws are a stream `nat -> real` read through a cursor.
- The objective `trainval` and `math.exp` are function parameters.
- One iteration of either `while` loop of `search` is one `Search.Step`.

## Modules

| file | module | what it holds |
|---|---|---|
| wrappers.dfy | Wrappers | `Option`, `Result` |
| ordered_dict.dfy | OrderedDict | insertion-ordered dictionaries, lookup, assignment |
| encoding.dfy | Encoding | candidate strings: building (line 63), `str.split`, decoding (lines 82-84) |
| selection.dfy | Selection | the cumulative-probability pick of one alternative (lines 55-64) |
| space.dfy | Space | search spaces, the uniform initialisation (lines 113-118) |
| generator.dfy | Generator | `get_candidate`: sampling rounds, retry bound, history (lines 36-75) |
| population.dfy | Population | sorted population, admission, replacement, `update_best` |
| space_model.dfy | SpaceModel | `update_search_space`: rank-weighted counts and softmax (lines 77-102) |
| annealing.dfy | Annealing | unsuccessful-trial counter and cooling (lines 176-192) |
| loop.dfy | Loop | a `while` loop with a step budget and its induction principle |
| search.dfy | Search | the two-phase driver `search` (lines 104-197) |

## Behaviour of the source kept as written

- **No selection fallback.** When no running total reaches the draw, the choice
  is left out of the candidate and its string (`Selection.SelectShortfall`).
  A fallback to the last alternative would be the usual guard against a
  rounding shortfall; the code has none, and the model follows the code.
- **Unused alternatives vanish.** `update_search_space` creates keys only for
  the pairs found in the population (`SpaceModel.UpdateSearchSpace`,
  `SpaceModel.CountsAreRankSums`). The retry bound is recomputed over the
  smaller space.
- **Separator test `len > 1`.** The `_` is written only after a string longer
  than one character. A one-character first piece (a choice and an alternative
  both empty, so the piece is `-`) therefore runs into the next piece
  (`Encoding.SeparatorQuirk`).
- **Empty candidate.** A round that selects nothing yields `''`, which fails to
  split (`Encoding.EmptyCandidateUndecodable`).
- **Temperature is not clamped, and termination tests `==`.** If the drop does
  not land exactly on the end temperature, the adaptive phase never stops by
  cooling. Then only exhaustion or an exception ends it (`Search.RunOffGrid`,
  `Annealing.CoolRunOffGrid`). The default 10/1/3 schedule lands exactly
  (`Annealing.DefaultScheduleGrid`).
- **Best record starts at 0.0 and None.** It names a candidate only once some
  score is strictly positive (`Population.BestOfIsMaximum`).
- **Crashes become stop reasons.** Each crash is a `Search.Stop` value rather
  than an exception.
  - A choice with no alternatives gives `max_attempts` = 0. `candidate` is then
    unbound at line 75. This is `NoCandidate`.
  - A population string that does not split into `choice-alternative` pieces
    raises `ValueError` at line 84. This is `Raised(MalformedEncoding)`.
  - A zero temperature divides by zero at line 97. This is
    `Raised(ZeroTemperature)`.
  - `k = 0` indexes an empty population at line 176. This is `NoWorstEntry`.
  - A negative `k` is not a crash: neither loop runs and `search` returns at
    once with no trial (`Search.NegativeKReturns`). This is `NegativeK`.

## Model

| member | source | states |
|---|---|---|
| OrderedDict.Put | kbestsearch.py:85-90 | dict assignment: an existing key keeps its place and takes the new value, a new key is appended, all other items unchanged |
| OrderedDict.PutGet | kbestsearch.py:85-90 | after `d[k] = v`, `d[k]` is `v`, every other key reads as before, and the key set grows by exactly `k` |
| Encoding.Split | kbestsearch.py:82-84 | `str.split`: at least one part, no part holds the separator, and joining the parts gives back the string |
| Encoding.SplitJoin | kbestsearch.py:82-84 | splitting undoes joining when no part holds the separator |
| Encoding.EncodeIsJoin | kbestsearch.py:63 | with non-empty choice labels, the string built piece by piece is the `_`-join of the `choice-alternative` pieces |
| Encoding.DecodeEncode | kbestsearch.py:82-84 | round trip: decoding the string of a non-empty candidate with separator-free, non-empty labels gives back its pairs in order |
| Encoding.EmptyCandidateUndecodable | kbestsearch.py:82-84 | the empty candidate encodes as `''`, and `''` fails to decode |
| Encoding.SeparatorQuirk | kbestsearch.py:63 | for any second pair whose names contain no `_`: after a first pair with both names empty, the string is `-` followed directly by the second piece with no `_`, and that string does not decode |
| Encoding.EncodeEnds | kbestsearch.py:49-63 | `Encode` (built from `PairText` and `Extend`, line 63): the string is empty exactly when nothing was selected, starts with the first `choice-alternative` piece and ends with the last |
| Encoding.SplitCount | kbestsearch.py:82-84 | `str.split` yields one more part than the string holds separators |
| Encoding.DecodePairSpec | kbestsearch.py:84 | `DecodePair`: a piece unpacks exactly when it holds one `-`; the two labels are then free of `-` and rebuild the piece |
| Encoding.DecodePiecesSome | kbestsearch.py:83-84 | `DecodePieces` succeeds exactly when every piece unpacks |
| Encoding.DecodePiecesText | kbestsearch.py:83-84 | a successful `DecodePieces` gives back the pieces one for one |
| Encoding.DecodeSpec | kbestsearch.py:82-84 | `Decode`: a string decodes only when every `_`-separated part holds exactly one `-`, fails when some part does not, and a decoded string is the `_`-join of its non-empty list of pieces |
| Selection.PickFrom | kbestsearch.py:57-64 | the inner loop returns the first index whose running total reaches the draw, or nothing when every running total stays below it |
| Selection.Pick | kbestsearch.py:55-64 | the picked index is the first reaching the draw, and nothing is picked exactly when no running total reaches it |
| Selection.Select | kbestsearch.py:55-64 | an alternative is selected exactly when some index is the first to reach the draw, and it is that index's alternative |
| Selection.FirstReachingUnique | kbestsearch.py:58-64 | at most one index is the first to reach the draw |
| Selection.SelectCovered | kbestsearch.py:58-64 | a draw no larger than the choice's total mass always selects one of its alternatives |
| Selection.SelectShortfall | kbestsearch.py:58-64 | when the total mass is below the draw, nothing is selected (no fallback) |
| Space.UniformOver | kbestsearch.py:117-118 | the inner loop writes a dict with distinct keys and no more items than listed alternatives (its contents are stated by the next three rows) |
| Space.UniformOverValues | kbestsearch.py:117-118 | every alternative written gets the same probability |
| Space.UniformOverHasKey | kbestsearch.py:117-118 | exactly the listed alternatives get a key |
| Space.UniformOverKeys | kbestsearch.py:117-118 | without duplicates the keys are the listed alternatives in order |
| Space.UniformIsDistribution | kbestsearch.py:114-118 | `Uniform`, the initialisation of one choice, gives each alternative `1/n`, keys exactly the listed ones, and a distribution when the list has no duplicates |
| Space.InitialSpace | kbestsearch.py:113-118 | same choices in the same order, each replaced by its uniform distribution |
| Space.InitialSpaceWellFormed | kbestsearch.py:113-118 | non-empty, duplicate-free alternative lists give a well-formed space whose every choice sums to one |
| Generator.CombinationsPositive | kbestsearch.py:38-41 | with no empty choice, `max_attempts` is positive |
| Generator.AssignmentsCount | kbestsearch.py:38-41 | `Combinations`, the product of the alternative counts, is the number of full assignments listed independently, and `MaxAttempts` is twice it |
| Generator.AssignmentsComplete | kbestsearch.py:38-41 | the assignments counted are exactly the candidates naming one alternative of every choice, in choice order |
| Generator.Round | kbestsearch.py:45-64 | round `r` of one call (one pass of the `while` body) yields pairs a round can produce |
| Generator.RoundIsSample | kbestsearch.py:45-73 | round `r` is the sample drawn with the `r`-th block of one draw per choice after the call's first draw |
| Generator.Sample | kbestsearch.py:48-64 | one round yields, in choice order, at most one pair per choice, each naming an alternative of that choice |
| Generator.SampleIsPicks | kbestsearch.py:52-64 | the round is exactly the per-choice selections in choice order, choice `i` selecting with draw `at + i` and being left out when its draw selects nothing |
| Generator.PicksChoice | kbestsearch.py:52-62 | with distinct choice names, a selection named after choice `i` can come only from choice `i`'s own draw |
| Generator.SampleChoice | kbestsearch.py:55-64 | with distinct choice names, the round holds `(choice i, a)` if and only if choice `i`'s draw selects `a` |
| Generator.SampleComplete | kbestsearch.py:52-64 | when every draw is within its choice's mass, the round assigns every choice |
| Generator.Attempt | kbestsearch.py:45-73 | the retry loop: each round takes the next block of one draw per choice; every round before the last drew a string already in the history; a success returns exactly the last round's pairs, whose string was not in the history and is appended to it; failure comes only after the last allowed round, whose string was also in the history, with `''` and the history unchanged |
| Generator.Generate | kbestsearch.py:36-75 | between 1 and `2 × ∏ alternatives` rounds, each taking the next block of one draw per choice; every round before the last drew a string already in the history; success returns exactly the last round's pairs and appends their string; failure comes after `max_attempts` rounds all of whose strings were in the history, leaves the history unchanged and returns `''`; a duplicate-free history stays duplicate-free |
| Generator.GenerateDraws | kbestsearch.py:38-55 | the draws consumed are the rounds times the number of choices |
| Generator.DistinctAppend | kbestsearch.py:66-68 | appending a string absent from a duplicate-free history keeps it duplicate-free |
| Generator.GenerateExhausted | kbestsearch.py:38-73 | when every producible string is in the history, the result is None after exactly `max_attempts` rounds, whatever the draws |
| Generator.GenerateAllSeen | kbestsearch.py:38-73 | with normalised probabilities, draws at most 1, and every full combination in the history, the result is None |
| Population.InsertAfterTies | kbestsearch.py:139-140 | appending then stable-sorting: sorted, a permutation of the old entries plus the new one |
| Population.InsertBeforeTies | kbestsearch.py:177-178 | overwriting the first entry then stable-sorting: sorted, a permutation of the tail plus the new entry |
| Population.Admit | kbestsearch.py:138-140 | a score at or above the threshold is added and the list stays sorted; any lower score changes nothing |
| Population.Replace | kbestsearch.py:176-178 | a score strictly above the worst replaces exactly that entry; the size stays, the order stays ascending, the minimum never decreases; a tie or lower score changes nothing |
| Population.InsertAfterDistinct | kbestsearch.py:139-140 | an entry whose string no entry has joins a population of distinct strings without creating a repeat |
| Population.InsertBeforeDistinct | kbestsearch.py:177-178 | the same for insertion before ties |
| Population.AdmitReplaceDistinct | kbestsearch.py:138-140 | admission and replacement (lines 176-178) of an entry with a fresh string keep the population's strings distinct |
| Population.UpdateBest | kbestsearch.py:26-34 | the record changes exactly when the new score is strictly greater, and then to the new candidate; the best score never decreases |
| Population.BestOfIsMaximum | kbestsearch.py:26-34 | over any run the record's score is the maximum of 0.0 and all scores; it names a candidate exactly when some score is positive, and then the earliest trial reaching the maximum |
| Population.BestMonotone | kbestsearch.py:26-34 | the best score over a prefix of a run is at most the best score over the whole run |
| SpaceModel.InnerOf | kbestsearch.py:85-86 | a valid count table gives a valid alternative table, non-empty for a counted choice |
| SpaceModel.Tally | kbestsearch.py:85-90 | one `count[c][a] += n` (created on first use) keeps the table valid |
| SpaceModel.TallyEffect | kbestsearch.py:85-90 | one update raises exactly that pair's count by `n`, gives it a key, and moves only its choice's total |
| SpaceModel.TallyAll | kbestsearch.py:83-90 | counting one entry keeps the table valid |
| SpaceModel.TallyAllCounts | kbestsearch.py:83-90 | one entry adds its rank to a pair's count once per occurrence of the pair |
| SpaceModel.TallyAllPresent | kbestsearch.py:83-90 | after one entry the keyed pairs are the old ones plus the entry's pairs |
| SpaceModel.TallyAllTotals | kbestsearch.py:83-90 | one entry adds its rank to a choice's total once per pair of that choice |
| SpaceModel.TallyPopulation | kbestsearch.py:80-90 | counting the whole population keeps the table valid |
| SpaceModel.TallyPopulationCounts | kbestsearch.py:80-90 | every count equals the sum of the 1-based ranks of the entries holding the pair |
| SpaceModel.TallyPopulationPresent | kbestsearch.py:80-90 | a pair has a key exactly when some entry holds it |
| SpaceModel.TallyPopulationTotals | kbestsearch.py:80-90 | each choice's total is the rank-weighted number of its pairs |
| SpaceModel.RankTotalTriangular | kbestsearch.py:80-90 | with one pair per choice in each of `k` entries, a choice's total is `k(k+1)/2` |
| SpaceModel.CountsAreRankSums | kbestsearch.py:80-100 | counts are rank sums, only pairs in the population get keys, and each choice totals `k(k+1)/2` when every entry has one pair for it |
| SpaceModel.DecodeAll | kbestsearch.py:81-84 | decoding succeeds exactly when every entry's string decodes, entry by entry in order |
| SpaceModel.DecodePiecesLength | kbestsearch.py:82-84 | a successful decoding has one pair per piece |
| SpaceModel.Weights | kbestsearch.py:96-97 | the exponentiated counts keep the alternatives in order |
| SpaceModel.Scale | kbestsearch.py:99-100 | dividing by the total keeps the alternatives in order |
| SpaceModel.ScaleByMass | kbestsearch.py:95-100 | positive weights divided by their sum are positive and sum to one |
| SpaceModel.Softmax | kbestsearch.py:95-100 | same alternatives in the same order, positive probabilities summing to one, equal counts getting equal probabilities |
| SpaceModel.SoftmaxAll | kbestsearch.py:93-100 | every counted choice, in order, gets a distribution over its counted alternatives |
| SpaceModel.UpdateSearchSpace | kbestsearch.py:77-102 | ValueError exactly when some string fails to decode, ZeroDivisionError exactly at temperature 0 on a decodable non-empty population, and otherwise a well-formed normalised space offering exactly the pairs found in the population |
| SpaceModel.NonEmptyCounts | kbestsearch.py:80-90 | a decodable non-empty population yields a non-empty count table |
| SpaceModel.SpaceWellFormed | kbestsearch.py:93-100 | a space with the counts' keys is well formed |
| SpaceModel.SpaceOffers | kbestsearch.py:93-100 | the rebuilt space offers a pair exactly when some population entry holds it |
| SpaceModel.OffersPair | kbestsearch.py:80-100 | per pair: offered by the rebuilt space exactly when held by some entry |
| SpaceModel.OffersPresent | kbestsearch.py:93-100 | a space with the counts' keys offers exactly the counted pairs |
| SpaceModel.AppearsInPopulation | kbestsearch.py:81-84 | the decoded population holds a pair exactly when some entry's string decodes to a candidate holding it |
| Annealing.Cool | kbestsearch.py:179-192 | stops exactly when the counter reaches `k` at the end temperature; success resets the counter, failure increments it; reaching `k` lowers the temperature by exactly the drop and resets; a count other than `k` keeps the temperature unchanged; the temperature never rises for a non-negative drop; the counter stays below `k` |
| Annealing.CounterCountsMisses | kbestsearch.py:176-192 | from a fresh counter, the counter is the number of misses since the last improvement taken modulo `k` (the reset at `k` restarts it); the last `counter` outcomes are misses; a stop comes only right after `k` misses in a row |
| Annealing.CoolRunAppend | kbestsearch.py:176-192 | `CoolRun` (the counter `Counted` and the stop test `Freezes` applied trial by trial): running over two stretches of outcomes is running over both, and after a stop (the `break` at line 189) no later outcome restarts the search |
| Annealing.CoolRunNeverWarms | kbestsearch.py:190-192 | with a non-negative drop the temperature never rises over any run of outcomes |
| Annealing.CoolStaysOnGrid | kbestsearch.py:187-192 | from the end temperature plus a whole number of drops, cooling stays on that grid and never goes below the end temperature |
| Annealing.CoolRunOnGrid | kbestsearch.py:187-192 | the same over any run of outcomes |
| Annealing.CoolOffGrid | kbestsearch.py:187-192 | off that grid, a step never stops and stays off the grid |
| Annealing.CoolRunOffGrid | kbestsearch.py:187-192 | off that grid, no run of outcomes ever stops by cooling |
| Annealing.DefaultScheduleGrid | kbestsearch.py:104 | the default schedule 10/1/3 reaches the end temperature exactly; a drop of 4 would skip it |
| Loop.Iterate | kbestsearch.py:162-197 | a budgeted loop stops at once when it is done or out of budget and keeps the per-iteration shape |
| Loop.IterateKeeps | kbestsearch.py:162-197 | a property of the start preserved by every iteration holds where the loop stops |
| Search.Start | kbestsearch.py:106-123 | empty history and population, no best, uniform space over the same choices |
| Search.SeedStep | kbestsearch.py:124-145 | one seeding trial: it stops with `NoCandidate` exactly when a choice is empty, and with `Exhausted` exactly when `get_candidate` returns None; otherwise it takes `get_candidate`'s history and draw position, records the entry of that candidate's string, `trainval` score and number `'r'`+n, and the population becomes the admission of that entry, growing exactly when the score reaches the threshold |
| Search.BeginAdaptive | kbestsearch.py:148-161 | with `k` entries the counter is reset and the search turns adaptive exactly when `update_search_space(population, start_temperature)` succeeds, the space then being its result; otherwise it stops with that call's exception (a decoding failure, or the start temperature 0) |
| Search.Replacement | kbestsearch.py:176-192 | the population becomes `Replace` of the entry, changing only on a strictly higher score and never lowering the minimum; the space is `update_search_space(new population, current temperature)`, and the search stops with that call's exception exactly when it raises; otherwise the schedule advances as `Cool` says and the search freezes exactly when `Cool` stops |
| Search.AdaptStep | kbestsearch.py:162-197 | one adaptive trial: `NoCandidate` exactly on an empty choice, `Exhausted` exactly when `get_candidate` returns None; otherwise it records the entry of that candidate's string, `trainval` score and number; a search that stays adaptive holds a sorted population of `k` and the space rebuilt from it at the current temperature; the best score never falls |
| Search.Step | kbestsearch.py:124-197 | one iteration of whichever loop runs; a stopped search stays put; the best score never falls |
| Search.Run | kbestsearch.py:124-197 | at most `fuel` iterations; the shape every step relies on is kept |
| Search.SearchRun | kbestsearch.py:104-197 | the whole search keeps a sorted population of at most `k` entries (none when `k` is negative) |
| Search.StartInv | kbestsearch.py:106-123 | the starting state satisfies the invariant |
| Search.SeedStepInv | kbestsearch.py:124-145 | a seeding trial keeps the invariant: duplicate-free history, one trial per history string, best equal to the run's record, population drawn from the trials with distinct strings and above the threshold, and while adaptive a space offering exactly the population's pairs |
| Search.SeedTrialInv | kbestsearch.py:126-145 | a seeding trial that evaluates a fresh candidate keeps the invariant |
| Search.BeginAdaptiveInv | kbestsearch.py:148-161 | entering the adaptive phase keeps the invariant |
| Search.ReplacementInv | kbestsearch.py:176-192 | replacement keeps the invariant |
| Search.AdaptStepInv | kbestsearch.py:162-197 | an adaptive trial keeps the invariant |
| Search.StepInv | kbestsearch.py:124-197 | every iteration keeps the invariant |
| Search.RunInv | kbestsearch.py:124-197 | the invariant holds after any number of iterations |
| Search.StepExtends | kbestsearch.py:124-197 | one iteration only extends the history, the trials (by at most one) and the draw cursor, and never lowers the best score |
| Search.SeedStepExtends | kbestsearch.py:124-135 | the same for a seeding trial |
| Search.AdaptStepExtends | kbestsearch.py:162-173 | the same for an adaptive trial |
| Search.RunExtends | kbestsearch.py:124-197 | over a run the history and trials only grow and the best score never falls |
| Search.SearchFacts | kbestsearch.py:104-197 | after any search the record is the first trial with the highest score (or none while no score is positive), no candidate string was evaluated twice, the population is sorted, of size at most `k` (empty when `k` is negative), made of evaluated trials with pairwise distinct strings, and while adaptive the space offers exactly the pairs the population holds |
| Search.NegativeKReturns | kbestsearch.py:124-148 | with a negative `k` both tests on `len(population)` fail at once: the search ends without a trial, history or best candidate |
| Search.AdaptStepDrawn | kbestsearch.py:165-178 | an adaptive trial either stops before evaluating anything, or records the entry of `get_candidate`'s candidate scored by `trainval` and is `Replacement` of the recorded state by that entry |
| Search.AdaptStepMinimum | kbestsearch.py:176-178 | the population's minimum never drops, and the population changes only on a score strictly above the worst entry |
| Search.AdaptStepTemperature | kbestsearch.py:186-192 | the temperature stays, or while the search goes on falls by exactly the drop |
| Search.AdaptStepFreezes | kbestsearch.py:186-189 | the search freezes exactly when a candidate was evaluated, the space rebuilt, and the counter reached `k` at the end temperature |
| Search.AdaptStepOffGrid | kbestsearch.py:186-192 | from an off-grid temperature an adaptive trial never freezes and the temperature stays off the grid |
| Search.RunMinimum | kbestsearch.py:176-178 | over the adaptive phase the population's minimum never decreases |
| Search.RunTemperature | kbestsearch.py:190-191 | with a non-negative drop the temperature never rises over the adaptive phase |
| Search.RunOffGrid | kbestsearch.py:186-192 | when the drops miss the end temperature, the adaptive phase never ends by freezing |

## Left out

- Printing (`print_status` and every `print`, lines 4-24, 143, 188, 195): console output with no effect on the search.
- The `__main__` demo (lines 199-215): example configuration and a random objective.
- `random.uniform` (line 55): replaced by a caller-supplied stream of draws `nat -> real`. The generator of that stream is not modelled.
- `trainval` and `math.exp`: uninterpreted function parameters. `exp` is required to be positive.
- Floating-point arithmetic: scores, probabilities, counts divided by the temperature and the softmax are exact reals. Rounding shortfall in the cumulative sum is not modelled.
- Temperatures are `int`, as in the default schedule 10/1/3. A fractional temperature would need reals in `Annealing`.
- In-place mutation of the caller's `search_space` dict (line 116) and of `candidate_history`: the model returns new values instead.
- `candidate` as a Python dict is passed to `trainval` as its ordered list of pairs.
- Labels as their `format` text: choices and alternatives are strings, namely the text that `'{0}-{1}'.format` writes at line 63. In the source the seeding phase passes the original alternative objects (an int, a float) to `trainval`, while from the first adaptive update on the alternatives are the strings split out at line 84, so `trainval` then receives `'1e-05'` where it first received `1e-05` (lines 63, 82-90, 168). A label whose text contains `-`, such as `-1` or `1e-05`, makes line 84 raise `ValueError` at the first adaptive update; working on that text, the model reaches the same stop, `Raised(MalformedEncoding)` (`Encoding.DecodePairSpec`).
- Search.Run: bounded by a `fuel` count of iterations. The source loops until it stops, which with an off-grid schedule may be never, so only finite prefixes of a search are described.
- Generator.Generate: requires every choice to have an alternative. The source then fails with `UnboundLocalError`. The driver checks first and stops with `NoCandidate`.
- SpaceModel.TallyPopulation: its own contract only keeps the table valid; what it counts is stated by `TallyPopulationCounts`, `TallyPopulationPresent` and `TallyPopulationTotals`.
- SpaceModel.UpdateSearchSpace: `math.exp` is an exact positive function, so two float exception paths of lines 97 and 100 are not modelled. One is the `OverflowError` when `count / temperature` exceeds about 709.78: for example, a choice with one alternative, `k >= 38` and temperature 1 gives a count of at least 741. The other is the `ZeroDivisionError` when every `exp` term underflows and `exp_sum` rounds to `0.0`, as large counts at a negative temperature can make it.

=== FILE: annealing.dfy ===
/** The cooling schedule of the adaptive phase (kbestsearch.py lines 176-192):
    a counter of unsuccessful trials at the current temperature, reset by an
    improvement; `k` misses in a row either end the search, at the end
    temperature, or lower the temperature by the drop and start counting again. */
module Annealing {
  import opened Wrappers

  /** `k`, `end_temperature` and `temperature_drop`. */
  datatype Schedule = Schedule(k: int, endTemperature: int, drop: int)

  /** `temperature` and `unsuccessful_trials`. */
  datatype Anneal = Anneal(temperature: int, unsuccessful: nat)

  /** The counter once the trial's outcome is known (lines 176-181). */
  function Counted(a: Anneal, improved: bool): nat {
    if improved then 0 else a.unsuccessful + 1
  }

  /** Whether the search stops after this outcome (line 187). */
  predicate Freezes(a: Anneal, improved: bool, s: Schedule) {
    Counted(a, improved) == s.k && a.temperature == s.endTemperature
  }

  /** One trial's bookkeeping (lines 179-192): None when the search stops. */
  function Cool(a: Anneal, improved: bool, s: Schedule): (r: Option<Anneal>)
    ensures r.None? <==> Freezes(a, improved, s)
    ensures improved && r.Some? ==> r.value.unsuccessful == 0
    ensures !improved && a.unsuccessful + 1 != s.k ==>
      r == Some(Anneal(a.temperature, a.unsuccessful + 1))
    ensures Counted(a, improved) != s.k ==> r == Some(Anneal(a.temperature, Counted(a, improved)))
    ensures r.Some? && Counted(a, improved) == s.k ==>
      r.value == Anneal(a.temperature - s.drop, 0)
    ensures r.Some? ==>
      r.value.temperature == a.temperature || r.value.temperature == a.temperature - s.drop
    ensures r.Some? && s.drop >= 0 ==> r.value.temperature <= a.temperature
    ensures r.Some? && s.k > 0 && a.unsuccessful < s.k ==> r.value.unsuccessful < s.k
  {
    var n := Counted(a, improved);
    if n == s.k && a.temperature == s.endTemperature then None
    else if n == s.k then Some(Anneal(a.temperature - s.drop, 0))
    else Some(Anneal(a.temperature, n))
  }

  /** Cooling over a run of outcomes; a stop is final. */
  function CoolRun(a: Anneal, outcomes: seq<bool>, s: Schedule): Option<Anneal>
    decreases |outcomes|
  {
    if |outcomes| == 0 then Some(a)
    else match CoolRun(a, outcomes[..|outcomes| - 1], s)
      case None => None
      case Some(b) => Cool(b, outcomes[|outcomes| - 1], s)
  }

  /** Running over `xs` and then `ys` is running over `xs + ys`: the counter
      and temperature carry over between trials, and once the search has
      stopped (the `break` at line 189) no later outcome restarts it. */
  lemma {:induction false} CoolRunAppend(a: Anneal, xs: seq<bool>, ys: seq<bool>, s: Schedule)
    ensures CoolRun(a, xs, s).None? ==> CoolRun(a, xs + ys, s).None?
    ensures CoolRun(a, xs, s).Some? ==> CoolRun(a, xs + ys, s) == CoolRun(CoolRun(a, xs, s).value, ys, s)
    decreases |ys|
  {
    if |ys| > 0 {
      var n := |ys|;
      CoolRunAppend(a, xs, ys[..n - 1], s);
      assert (xs + ys)[..|xs + ys| - 1] == xs + ys[..n - 1];
      assert (xs + ys)[|xs + ys| - 1] == ys[n - 1];
    } else {
      assert xs + ys == xs;
    }
  }

  /** The last `n` outcomes were all misses. */
  predicate MissedLast(outcomes: seq<bool>, n: nat) {
    n <= |outcomes| && forall i :: |outcomes| - n <= i < |outcomes| ==> !outcomes[i]
  }

  /** The length of the run of misses that ends `outcomes`. */
  function TrailingMisses(outcomes: seq<bool>): nat
    decreases |outcomes|
  {
    if |outcomes| == 0 || outcomes[|outcomes| - 1] then 0
    else TrailingMisses(outcomes[..|outcomes| - 1]) + 1
  }

  /** A non-zero multiple of a positive `k` is at least `k` away from zero. */
  lemma MulMono(d: int, k: int)
    requires k > 0
    ensures d >= 1 ==> d * k >= k
    ensures d <= -1 ==> d * k <= -k
  {
    if d >= 1 {
      assert d * k == (d - 1) * k + k;
    } else if d <= -1 {
      assert d * k == (d + 1) * k - k;
      assert (-(d + 1)) * k >= 0;
    }
  }

  /** The remainder is the only `r` in `[0, k)` with `x == q * k + r`. */
  lemma ModUnique(x: int, k: int, q: int, r: int)
    requires k > 0 && 0 <= r < k && x == q * k + r
    ensures x % k == r
  {
    var q', r' := x / k, x % k;
    var d := q' - q;
    assert d * k == r - r' by {
      assert q' * k + r' == q * k + r;
      assert d * k == q' * k - q * k;
    }
    MulMono(d, k);
  }

  /** One more step of counting modulo `k`. */
  lemma ModStep(t: nat, k: nat)
    requires k > 0
    ensures (t + 1) % k == if t % k + 1 == k then 0 else t % k + 1
  {
    var q, r := t / k, t % k;
    if r + 1 == k {
      assert t + 1 == (q + 1) * k + 0;
      ModUnique(t + 1, k, q + 1, 0);
    } else {
      assert t + 1 == q * k + (r + 1);
      ModUnique(t + 1, k, q, r + 1);
    }
  }

  /** Starting from a fresh counter, the counter is the number of misses since
      the last hit, modulo `k` because every `k`-th miss in a row cools and
      resets it; so the last `counter` outcomes were misses, and a stop comes
      only right after `k` misses in a row. */
  lemma {:induction false} CounterCountsMisses(t: int, outcomes: seq<bool>, s: Schedule)
    requires s.k > 0
    ensures CoolRun(Anneal(t, 0), outcomes, s).Some? ==>
      CoolRun(Anneal(t, 0), outcomes, s).value.unsuccessful == TrailingMisses(outcomes) % s.k
    ensures CoolRun(Anneal(t, 0), outcomes, s).Some? ==>
      MissedLast(outcomes, CoolRun(Anneal(t, 0), outcomes, s).value.unsuccessful)
    ensures |outcomes| > 0 && CoolRun(Anneal(t, 0), outcomes, s).None? &&
      CoolRun(Anneal(t, 0), outcomes[..|outcomes| - 1], s).Some?
      ==> MissedLast(outcomes, s.k)
    decreases |outcomes|
  {
    if |outcomes| > 0 {
      var init := outcomes[..|outcomes| - 1];
      var last := outcomes[|outcomes| - 1];
      CounterCountsMisses(t, init, s);
      match CoolRun(Anneal(t, 0), init, s)
      case None =>
      case Some(b) =>
        assert MissedLast(init, b.unsuccessful);
        assert forall i :: 0 <= i < |init| ==> init[i] == outcomes[i];
        if !last {
          assert MissedLast(outcomes, b.unsuccessful + 1);
          ModStep(TrailingMisses(init), s.k);
        }
    }
  }

  /** The `m`-th temperature above the end temperature on the drop's grid. */
  function GridPoint(s: Schedule, m: nat): int {
    s.endTemperature + m * s.drop
  }

  /** A temperature the schedule can reach exactly by whole drops. */
  ghost predicate OnGrid(t: int, s: Schedule) {
    exists m: nat :: t == GridPoint(s, m)
  }

  lemma GridBelow(s: Schedule, m: nat)
    requires m > 0
    ensures GridPoint(s, m) - s.drop == GridPoint(s, m - 1)
  {
    assert m * s.drop == (m - 1) * s.drop + s.drop;
  }

  /** From a temperature on the grid, cooling stays on the grid. */
  lemma CoolStaysOnGrid(a: Anneal, improved: bool, s: Schedule)
    requires s.drop > 0 && OnGrid(a.temperature, s)
    ensures Cool(a, improved, s).Some? ==> OnGrid(Cool(a, improved, s).value.temperature, s)
    ensures Cool(a, improved, s).Some? ==> Cool(a, improved, s).value.temperature >= s.endTemperature
  {
    var m: nat :| a.temperature == GridPoint(s, m);
    var r := Cool(a, improved, s);
    if r.Some? && r.value.temperature != a.temperature {
      assert m != 0;
      GridBelow(s, m);
      assert r.value.temperature == GridPoint(s, m - 1);
    }
    if r.Some? {
      var t := r.value.temperature;
      var n: nat :| t == GridPoint(s, n);
      assert n * s.drop >= 0;
    }
  }

  /** One drop above a grid point is a grid point. */
  lemma GridAbove(t: int, s: Schedule)
    ensures OnGrid(t, s) ==> OnGrid(t + s.drop, s)
  {
    if OnGrid(t, s) {
      var n: nat :| t == GridPoint(s, n);
      GridBelow(s, n + 1);
      assert t + s.drop == GridPoint(s, n + 1);
    }
  }

  /** Off the grid the search never stops by cooling, and every temperature it
      reaches is off the grid too. */
  lemma CoolOffGrid(a: Anneal, improved: bool, s: Schedule)
    requires !OnGrid(a.temperature, s)
    ensures Cool(a, improved, s).Some?
    ensures !OnGrid(Cool(a, improved, s).value.temperature, s)
  {
    assert a.temperature != GridPoint(s, 0);
    GridAbove(a.temperature - s.drop, s);
  }

  /** Over any run of outcomes from an off-grid temperature, the search never
      stops by cooling. */
  lemma {:induction false} CoolRunOffGrid(a: Anneal, outcomes: seq<bool>, s: Schedule)
    requires !OnGrid(a.temperature, s)
    ensures CoolRun(a, outcomes, s).Some?
    ensures !OnGrid(CoolRun(a, outcomes, s).value.temperature, s)
    decreases |outcomes|
  {
    if |outcomes| > 0 {
      CoolRunOffGrid(a, outcomes[..|outcomes| - 1], s);
      CoolOffGrid(CoolRun(a, outcomes[..|outcomes| - 1], s).value, outcomes[|outcomes| - 1], s);
    }
  }

  /** With a non-negative drop the temperature never rises over a run. */
  lemma {:induction false} CoolRunNeverWarms(a: Anneal, outcomes: seq<bool>, s: Schedule)
    requires s.drop >= 0
    ensures CoolRun(a, outcomes, s).Some? ==> CoolRun(a, outcomes, s).value.temperature <= a.temperature
    decreases |outcomes|
  {
    if |outcomes| > 0 {
      CoolRunNeverWarms(a, outcomes[..|outcomes| - 1], s);
    }
  }

  /** From a grid temperature with a positive drop, the temperature stays on the
      grid and never falls below the end temperature over a run. */
  lemma {:induction false} CoolRunOnGrid(a: Anneal, outcomes: seq<bool>, s: Schedule)
    requires s.drop > 0 && OnGrid(a.temperature, s)
    ensures CoolRun(a, outcomes, s).Some? ==>
      OnGrid(CoolRun(a, outcomes, s).value.temperature, s) &&
      CoolRun(a, outcomes, s).value.temperature >= s.endTemperature
    decreases |outcomes|
  {
    if |outcomes| > 0 {
      CoolRunOnGrid(a, outcomes[..|outcomes| - 1], s);
      var prev := CoolRun(a, outcomes[..|outcomes| - 1], s);
      if prev.Some? {
        CoolStaysOnGrid(prev.value, outcomes[|outcomes| - 1], s);
      }
    }
  }

  /** The default schedule (start 10, end 1, drop 3) reaches the end temperature
      exactly; a drop of 4 from the same start skips it, so that search can only
      end when the candidates run out. */
  lemma DefaultScheduleGrid()
    ensures OnGrid(10, Schedule(5, 1, 3))
    ensures !OnGrid(10, Schedule(5, 1, 4))
  {
    assert 10 == GridPoint(Schedule(5, 1, 3), 3);
    forall m: nat
      ensures 10 != GridPoint(Schedule(5, 1, 4), m)
    {
      if m <= 2 {
      } else {
        assert m * 4 >= 12;
      }
    }
  }
}

=== FILE: encoding.dfy ===
/** The string identity of a candidate: `choice-alternative` pieces joined by `_`,
    and the splitting that takes it apart again (kbestsearch.py lines 63 and 82-84). */
module Encoding {
  import opened Wrappers

  /** One (choice, alternative) assignment of a candidate. */
  datatype Pair = Pair(choice: string, alt: string)

  /** Separates the pieces of a candidate string. */
  const PairSep: char := '_'

  /** Separates a choice from its alternative inside one piece. */
  const LabelSep: char := '-'

  /** A label that survives the round trip: non-empty and free of both separators. */
  predicate Label(s: string) {
    |s| > 0 && PairSep !in s && LabelSep !in s
  }

  predicate Labelled(pairs: seq<Pair>) {
    forall i :: 0 <= i < |pairs| ==> Label(pairs[i].choice) && Label(pairs[i].alt)
  }

  /** `'{0}-{1}'.format(choice, alternative)`. */
  function PairText(p: Pair): string {
    p.choice + [LabelSep] + p.alt
  }

  /** Appending one piece: the separator is written only when the string built
      so far is longer than one character. */
  function Extend(s: string, p: Pair): string {
    if |s| > 1 then s + [PairSep] + PairText(p) else s + PairText(p)
  }

  /** The candidate string for the selected pairs, built left to right. */
  function Encode(pairs: seq<Pair>): string
    decreases |pairs|
  {
    if |pairs| == 0 then ""
    else Extend(Encode(pairs[..|pairs| - 1]), pairs[|pairs| - 1])
  }

  /** Reference joiner: the parts with `sep` between neighbours. */
  function Join(parts: seq<string>, sep: char): string
    requires |parts| > 0
    decreases |parts|
  {
    if |parts| == 1 then parts[0] else parts[0] + [sep] + Join(parts[1..], sep)
  }

  /** Python's `s.split(sep)`: always at least one part, none holding `sep`,
      and joining the parts gives back `s`. */
  function Split(s: string, sep: char): (parts: seq<string>)
    ensures |parts| > 0
    ensures forall i :: 0 <= i < |parts| ==> sep !in parts[i]
    ensures Join(parts, sep) == s
    decreases |s|
  {
    if |s| == 0 then [""]
    else if s[0] == sep then
      var rest := Split(s[1..], sep);
      assert [sep] + s[1..] == s;
      [""] + rest
    else
      var rest := Split(s[1..], sep);
      var parts := [[s[0]] + rest[0]] + rest[1..];
      assert parts[1..] == rest[1..];
      assert Join(parts, sep) == [s[0]] + Join(rest, sep);
      assert [s[0]] + s[1..] == s;
      parts
  }

  /** `choice, alternative = pair.split('-')`: exactly two fields, else a ValueError. */
  function DecodePair(piece: string): Option<Pair> {
    var fields := Split(piece, LabelSep);
    if |fields| == 2 then Some(Pair(fields[0], fields[1])) else None
  }

  /** Decodes every piece in order; one bad piece spoils the whole string. */
  function DecodePieces(pieces: seq<string>): Option<seq<Pair>>
    decreases |pieces|
  {
    if |pieces| == 0 then Some([])
    else
      match DecodePieces(pieces[..|pieces| - 1])
      case None => None
      case Some(init) =>
        match DecodePair(pieces[|pieces| - 1])
        case None => None
        case Some(p) => Some(init + [p])
  }

  /** `candidate_string.split('_')` followed by the per-piece split. */
  function Decode(s: string): Option<seq<Pair>> {
    DecodePieces(Split(s, PairSep))
  }

  /** The pieces of an encoding. */
  function Pieces(pairs: seq<Pair>): (ps: seq<string>)
    ensures |ps| == |pairs|
    ensures forall i :: 0 <= i < |pairs| ==> ps[i] == PairText(pairs[i])
  {
    seq(|pairs|, i requires 0 <= i < |pairs| => PairText(pairs[i]))
  }

  lemma {:induction false} SplitNoSep(s: string, sep: char)
    requires sep !in s
    ensures Split(s, sep) == [s]
    decreases |s|
  {
    if |s| > 0 {
      SplitNoSep(s[1..], sep);
      assert [s[0]] + s[1..] == s;
    }
  }

  lemma {:induction false} SplitAfterFirst(x: string, y: string, sep: char)
    requires sep !in x
    ensures Split(x + [sep] + y, sep) == [x] + Split(y, sep)
    decreases |x|
  {
    var s := x + [sep] + y;
    if |x| == 0 {
      assert s[1..] == y;
    } else {
      assert s[1..] == x[1..] + [sep] + y;
      SplitAfterFirst(x[1..], y, sep);
      assert [x[0]] + x[1..] == x;
    }
  }

  /** Splitting undoes joining when no part holds the separator. */
  lemma {:induction false} SplitJoin(parts: seq<string>, sep: char)
    requires |parts| > 0
    requires forall i :: 0 <= i < |parts| ==> sep !in parts[i]
    ensures Split(Join(parts, sep), sep) == parts
    decreases |parts|
  {
    if |parts| == 1 {
      SplitNoSep(parts[0], sep);
    } else {
      SplitJoin(parts[1..], sep);
      SplitAfterFirst(parts[0], Join(parts[1..], sep), sep);
      assert [parts[0]] + parts[1..] == parts;
    }
  }

  lemma {:induction false} JoinSnoc(parts: seq<string>, q: string, sep: char)
    requires |parts| > 0
    ensures Join(parts + [q], sep) == Join(parts, sep) + [sep] + q
    decreases |parts|
  {
    if |parts| > 1 {
      assert (parts + [q])[1..] == parts[1..] + [q];
      JoinSnoc(parts[1..], q, sep);
    }
  }

  /** Line 63 over the whole loop: the string is empty exactly when nothing was
      selected, starts with the first piece and ends with the last, since every
      piece is only appended. */
  lemma {:induction false} EncodeEnds(pairs: seq<Pair>)
    ensures |Encode(pairs)| == 0 <==> |pairs| == 0
    ensures |pairs| > 0 ==> PairText(pairs[0]) <= Encode(pairs)
    ensures |pairs| > 0 ==>
      var s, last := Encode(pairs), PairText(pairs[|pairs| - 1]);
      |last| <= |s| && s[|s| - |last|..] == last
    decreases |pairs|
  {
    if |pairs| > 1 {
      var init := pairs[..|pairs| - 1];
      EncodeEnds(init);
      assert init[0] == pairs[0];
      var prev := Encode(init);
      assert prev <= Encode(pairs);
      assert PairText(pairs[0]) == prev[..|PairText(pairs[0])|];
    }
  }

  /** A string splits into one more part than it holds separators. */
  lemma {:induction false} SplitCount(s: string, sep: char)
    ensures |Split(s, sep)| == multiset(s)[sep] + 1
    decreases |s|
  {
    if |s| > 0 {
      SplitCount(s[1..], sep);
      assert s == [s[0]] + s[1..];
    }
  }

  /** The piece holds exactly one `-`. */
  predicate OneLabelSep(piece: string) {
    multiset(piece)[LabelSep] == 1
  }

  /** Line 84 on one piece: it unpacks exactly when the piece holds one `-`,
      else a ValueError; the two labels are free of `-`, and put back together
      they give the piece. */
  lemma DecodePairSpec(piece: string)
    ensures DecodePair(piece).Some? <==> OneLabelSep(piece)
    ensures DecodePair(piece).Some? ==>
      && PairText(DecodePair(piece).value) == piece
      && LabelSep !in DecodePair(piece).value.choice
      && LabelSep !in DecodePair(piece).value.alt
  {
    var fields := Split(piece, LabelSep);
    SplitCount(piece, LabelSep);
    if |fields| == 2 {
      assert fields[1..] == [fields[1]];
      assert Join(fields, LabelSep) == fields[0] + [LabelSep] + fields[1];
    }
  }

  /** Lines 83-84 over all pieces: decoding succeeds exactly when every piece
      unpacks. */
  lemma {:induction false} DecodePiecesSome(pieces: seq<string>)
    ensures DecodePieces(pieces).Some? <==> forall i :: 0 <= i < |pieces| ==> DecodePair(pieces[i]).Some?
    decreases |pieces|
  {
    if |pieces| > 0 {
      var n := |pieces|;
      var init := pieces[..n - 1];
      DecodePiecesSome(init);
      assert forall i :: 0 <= i < n - 1 ==> init[i] == pieces[i];
    }
  }

  /** Lines 83-84 over all pieces: a successful decoding gives back the pieces
      one for one. */
  lemma {:induction false} DecodePiecesText(pieces: seq<string>)
    ensures DecodePieces(pieces).Some? ==> Pieces(DecodePieces(pieces).value) == pieces
    decreases |pieces|
  {
    if |pieces| > 0 {
      var n := |pieces|;
      var init := pieces[..n - 1];
      DecodePiecesText(init);
      assert init + [pieces[n - 1]] == pieces;
      match DecodePieces(init)
      case None =>
      case Some(prev) =>
        DecodePairSpec(pieces[n - 1]);
        match DecodePair(pieces[n - 1])
        case None =>
        case Some(p) =>
          assert Pieces(prev + [p]) == Pieces(prev) + [PairText(p)];
    }
  }

  /** Lines 82-84: a string decodes exactly when every `_`-separated part holds
      one `-`, and then joining the decoded pairs' pieces with `_` gives back the
      string. */
  lemma DecodeSpec(s: string)
    ensures Decode(s).Some? ==>
      forall i :: 0 <= i < |Split(s, PairSep)| ==> OneLabelSep(Split(s, PairSep)[i])
    ensures Decode(s).None? ==>
      exists i :: 0 <= i < |Split(s, PairSep)| && !OneLabelSep(Split(s, PairSep)[i])
    ensures Decode(s).Some? ==> |Decode(s).value| > 0 && Join(Pieces(Decode(s).value), PairSep) == s
  {
    var parts := Split(s, PairSep);
    DecodePiecesSome(parts);
    DecodePiecesText(parts);
    assert Decode(s) == DecodePieces(parts);
    if Decode(s).Some? {
      forall i | 0 <= i < |parts|
        ensures OneLabelSep(parts[i])
      {
        DecodePairSpec(parts[i]);
      }
      var pairs := Decode(s).value;
      assert Pieces(pairs) == parts;
      assert |pairs| == |parts| > 0;
    } else {
      var i :| 0 <= i < |parts| && DecodePair(parts[i]).None?;
      DecodePairSpec(parts[i]);
    }
  }

  /** With non-empty choice labels, the string built at line 63 is the plain
      `_`-join of the pieces: the one-character quirk never triggers. */
  lemma {:induction false} EncodeIsJoin(pairs: seq<Pair>)
    requires |pairs| > 0
    requires forall i :: 0 <= i < |pairs| ==> |pairs[i].choice| > 0
    ensures Encode(pairs) == Join(Pieces(pairs), PairSep)
    ensures |Encode(pairs)| > 1
    decreases |pairs|
  {
    var n := |pairs|;
    var init := pairs[..n - 1];
    if n == 1 {
      assert Encode(pairs) == PairText(pairs[0]);
    } else {
      EncodeIsJoin(init);
      assert Pieces(pairs) == Pieces(init) + [PairText(pairs[n - 1])];
      JoinSnoc(Pieces(init), PairText(pairs[n - 1]), PairSep);
    }
  }

  lemma {:induction false} DecodePiecesOfPairs(pairs: seq<Pair>)
    requires Labelled(pairs)
    ensures DecodePieces(Pieces(pairs)) == Some(pairs)
    decreases |pairs|
  {
    var n := |pairs|;
    if n > 0 {
      var p := pairs[n - 1];
      assert Pieces(pairs)[..n - 1] == Pieces(pairs[..n - 1]);
      DecodePiecesOfPairs(pairs[..n - 1]);
      SplitAfterFirst(p.choice, p.alt, LabelSep);
      SplitNoSep(p.alt, LabelSep);
      assert pairs[..n - 1] + [p] == pairs;
    }
  }

  /** Encoding round trip: a non-empty candidate with well-formed labels is
      recovered exactly, pair by pair and in order, by splitting its string. */
  lemma {:induction false} DecodeEncode(pairs: seq<Pair>)
    requires |pairs| > 0
    requires Labelled(pairs)
    ensures Decode(Encode(pairs)) == Some(pairs)
  {
    EncodeIsJoin(pairs);
    SplitJoin(Pieces(pairs), PairSep);
    DecodePiecesOfPairs(pairs);
  }

  /** A candidate that selected nothing is the empty string, which fails to split
      into a choice and an alternative. */
  lemma EmptyCandidateUndecodable()
    ensures Encode([]) == ""
    ensures Decode("") == None
  {
    assert Split("", PairSep) == [""];
    assert Split("", LabelSep) == [""];
  }

  /** A string holding the separator splits into at least two parts. */
  lemma SplitAtSep(s: string, sep: char)
    requires sep in s
    ensures |Split(s, sep)| >= 2
  {
  }

  /** The separator test `len(candidate_string) > 1` skips the separator after the
      only one-character first piece, `-` for an empty choice and alternative, so
      it runs into whatever piece follows; the joined piece has three fields and
      the string no longer decodes. */
  lemma SeparatorQuirk(p: Pair)
    requires PairSep !in p.choice && PairSep !in p.alt
    ensures Encode([Pair("", ""), p]) == [LabelSep] + PairText(p)
    ensures Decode([LabelSep] + PairText(p)) == None
  {
    var pairs := [Pair("", ""), p];
    assert pairs[..1] == [Pair("", "")] && pairs[..1][..0] == [];
    assert Encode(pairs[..1]) == [LabelSep];
    var t := PairText(p);
    var s := [LabelSep] + t;
    assert PairSep !in s by {
      assert s == [LabelSep] + p.choice + [LabelSep] + p.alt;
    }
    SplitNoSep(s, PairSep);
    assert "" + [LabelSep] + t == s;
    SplitAfterFirst("", t, LabelSep);
    assert t[|p.choice|] == LabelSep;
    SplitAtSep(t, LabelSep);
    assert |Split(s, LabelSep)| >= 3;
  }
}

=== FILE: generator.dfy ===
/** `get_candidate` (kbestsearch.py lines 36-75): draw one alternative per choice,
    encode the result, and retry while the encoding is already in the history,
    at most twice the number of combinations; then report exhaustion. */
module Generator {
  import opened Wrappers
  import opened OrderedDict
  import opened Encoding
  import opened Selection
  import opened Space

  /** The stream of `random.uniform(0, 1)` results, indexed by draw number. */
  type Draws = nat -> real

  /** Number of combinations: the product of the alternative counts. */
  function Combinations(space: SearchSpace): nat
    decreases |space|
  {
    if |space| == 0 then 1
    else Combinations(space[..|space| - 1]) * |space[|space| - 1].val|
  }

  /** `max_attempts` (lines 38-41). */
  function MaxAttempts(space: SearchSpace): nat {
    2 * Combinations(space)
  }

  lemma {:induction false} CombinationsPositive(space: SearchSpace)
    requires NoEmptyChoice(space)
    ensures Combinations(space) > 0
    decreases |space|
  {
    if |space| > 0 {
      CombinationsPositive(space[..|space| - 1]);
    }
  }

  /** Every full assignment of `space`: choices in order, and for each prefix the
      alternatives of the next choice in dictionary order. */
  function Assignments(space: SearchSpace): seq<seq<Pair>>
    decreases |space|
  {
    if |space| == 0 then [[]]
    else Widen(Assignments(space[..|space| - 1]), space[|space| - 1])
  }

  /** Each of `prefixes`, followed in turn by each alternative of choice `c`. */
  function Widen(prefixes: seq<seq<Pair>>, c: Item<Dict<real>>): seq<seq<Pair>>
    decreases |prefixes|
  {
    if |prefixes| == 0 then []
    else
      var n := |prefixes|;
      Widen(prefixes[..n - 1], c)
        + seq(|c.val|, j requires 0 <= j < |c.val| => prefixes[n - 1] + [Pair(c.key, c.val[j].key)])
  }

  lemma {:induction false} WidenLength(prefixes: seq<seq<Pair>>, c: Item<Dict<real>>)
    ensures |Widen(prefixes, c)| == |prefixes| * |c.val|
    decreases |prefixes|
  {
    if |prefixes| > 0 {
      var n := |prefixes|;
      WidenLength(prefixes[..n - 1], c);
      assert (n - 1) * |c.val| + |c.val| == n * |c.val|;
    }
  }

  lemma {:induction false} WidenMembers(prefixes: seq<seq<Pair>>, c: Item<Dict<real>>, a: seq<Pair>)
    ensures a in Widen(prefixes, c) <==>
      exists k, j :: 0 <= k < |prefixes| && 0 <= j < |c.val| && a == prefixes[k] + [Pair(c.key, c.val[j].key)]
    decreases |prefixes|
  {
    if |prefixes| > 0 {
      var n := |prefixes|;
      var init := prefixes[..n - 1];
      WidenMembers(init, c, a);
      if a in Widen(prefixes, c) && a !in Widen(init, c) {
        var j :| 0 <= j < |c.val| && a == prefixes[n - 1] + [Pair(c.key, c.val[j].key)];
        assert 0 <= n - 1 < n;
      }
      if exists k, j :: 0 <= k < n && 0 <= j < |c.val| && a == prefixes[k] + [Pair(c.key, c.val[j].key)] {
        var k, j :| 0 <= k < n && 0 <= j < |c.val| && a == prefixes[k] + [Pair(c.key, c.val[j].key)];
        if k < n - 1 {
          assert a == init[k] + [Pair(c.key, c.val[j].key)];
        } else {
          var tail := seq(|c.val|, j requires 0 <= j < |c.val| => prefixes[n - 1] + [Pair(c.key, c.val[j].key)]);
          assert tail[j] == a;
        }
      }
    }
  }

  /** `max_attempts` is twice the number of combinations (lines 38-41), counted
      independently as the full assignments. */
  lemma {:induction false} AssignmentsCount(space: SearchSpace)
    ensures |Assignments(space)| == Combinations(space)
    ensures MaxAttempts(space) == 2 * |Assignments(space)|
    decreases |space|
  {
    if |space| > 0 {
      AssignmentsCount(space[..|space| - 1]);
      WidenLength(Assignments(space[..|space| - 1]), space[|space| - 1]);
    }
  }

  /** Every assignment counted is complete. */
  lemma {:induction false} AssignmentsAreComplete(space: SearchSpace, a: seq<Pair>)
    requires a in Assignments(space)
    ensures Complete(space, a)
    decreases |space|
  {
    if |space| > 0 {
      var n := |space|;
      var init, c := space[..n - 1], space[n - 1];
      assert a in Widen(Assignments(init), c);
      WidenMembers(Assignments(init), c, a);
      var k, j :| 0 <= k < |Assignments(init)| && 0 <= j < |c.val|
        && a == Assignments(init)[k] + [Pair(c.key, c.val[j].key)];
      var b := Assignments(init)[k];
      AssignmentsAreComplete(init, b);
      forall i | 0 <= i < n
        ensures a[i].choice == space[i].key && HasKey(space[i].val, a[i].alt)
      {
        if i < n - 1 {
          assert a[i] == b[i] && space[i] == init[i];
        } else {
          assert a[i] == Pair(c.key, c.val[j].key);
        }
      }
    }
  }

  /** Every complete assignment is counted. */
  lemma {:induction false} CompleteIsAssignment(space: SearchSpace, a: seq<Pair>)
    requires Complete(space, a)
    ensures a in Assignments(space)
    decreases |space|
  {
    if |space| > 0 {
      var n := |space|;
      var init, c := space[..n - 1], space[n - 1];
      var b := a[..n - 1];
      forall i | 0 <= i < n - 1
        ensures b[i].choice == init[i].key && HasKey(init[i].val, b[i].alt)
      {
        assert b[i] == a[i] && init[i] == space[i];
      }
      CompleteIsAssignment(init, b);
      var k :| 0 <= k < |Assignments(init)| && Assignments(init)[k] == b;
      assert HasKey(c.val, a[n - 1].alt);
      var j :| 0 <= j < |c.val| && c.val[j].key == a[n - 1].alt;
      assert a == Assignments(init)[k] + [Pair(c.key, c.val[j].key)];
      WidenMembers(Assignments(init), c, a);
    }
  }

  /** The combinations `max_attempts` counts are exactly the complete assignments. */
  lemma AssignmentsComplete(space: SearchSpace, a: seq<Pair>)
    ensures a in Assignments(space) <==> Complete(space, a)
  {
    if a in Assignments(space) {
      AssignmentsAreComplete(space, a);
    }
    if Complete(space, a) {
      CompleteIsAssignment(space, a);
    }
  }

  /** The pairs one sampling round can produce: per choice, in choice order,
      either nothing or one of that choice's alternatives. */
  ghost predicate Drawable(space: SearchSpace, pairs: seq<Pair>)
    decreases |space|
  {
    if |space| == 0 then pairs == []
    else
      var n := |space|;
      || Drawable(space[..n - 1], pairs)
      || (&& |pairs| > 0
          && pairs[|pairs| - 1].choice == space[n - 1].key
          && HasKey(space[n - 1].val, pairs[|pairs| - 1].alt)
          && Drawable(space[..n - 1], pairs[..|pairs| - 1]))
  }

  /** A full assignment: exactly one alternative for every choice, in choice order. */
  ghost predicate Complete(space: SearchSpace, pairs: seq<Pair>) {
    && |pairs| == |space|
    && forall i :: 0 <= i < |space| ==>
         pairs[i].choice == space[i].key && HasKey(space[i].val, pairs[i].alt)
  }

  /** One sampling round (lines 48-64) using draws `at`, `at + 1`, ... one per choice. */
  function Sample(space: SearchSpace, draws: Draws, at: nat): (pairs: seq<Pair>)
    ensures Drawable(space, pairs)
    ensures |pairs| <= |space|
    decreases |space|
  {
    if |space| == 0 then []
    else
      var n := |space|;
      var init := Sample(space[..n - 1], draws, at);
      match Select(space[n - 1].val, draws(at + n - 1))
      case None => init
      case Some(a) =>
        var pairs := init + [Pair(space[n - 1].key, a)];
        assert pairs[..|pairs| - 1] == init;
        pairs
  }

  /** What choice `i`'s own draw, number `at + i`, selects for it, as a pair. */
  function Pick1(space: SearchSpace, draws: Draws, at: nat, i: nat): Option<Pair>
    requires i < |space|
  {
    match Select(space[i].val, draws(at + i))
    case None => None
    case Some(a) => Some(Pair(space[i].key, a))
  }

  /** The outcome of every choice of a round, in choice order. */
  function Picks(space: SearchSpace, draws: Draws, at: nat): seq<Option<Pair>> {
    seq(|space|, i requires 0 <= i < |space| => Pick1(space, draws, at, i))
  }

  /** An optional value as a sequence of zero or one elements. */
  function AsSeq<T>(o: Option<T>): seq<T> {
    match o
    case None => []
    case Some(x) => [x]
  }

  /** The present values, in order. */
  function Somes<T>(xs: seq<Option<T>>): seq<T>
    decreases |xs|
  {
    if |xs| == 0 then [] else Somes(xs[..|xs| - 1]) + AsSeq(xs[|xs| - 1])
  }

  lemma {:induction false} SomesMember<T>(xs: seq<Option<T>>, x: T)
    ensures x in Somes(xs) <==> Some(x) in xs
    decreases |xs|
  {
    if |xs| > 0 {
      var init := xs[..|xs| - 1];
      SomesMember(init, x);
      assert xs == init + [xs[|xs| - 1]];
    }
  }

  /** The last choice's draw adds its selection, if any, after the others'. */
  lemma SampleLast(space: SearchSpace, draws: Draws, at: nat)
    requires |space| > 0
    ensures Sample(space, draws, at) ==
      Sample(space[..|space| - 1], draws, at) + AsSeq(Pick1(space, draws, at, |space| - 1))
  {
    var n := |space|;
    match Select(space[n - 1].val, draws(at + n - 1))
    case None =>
    case Some(a) =>
  }

  /** A round is the choices' own selections in choice order, the choices whose
      draw selected nothing left out. */
  lemma {:induction false} SampleIsPicks(space: SearchSpace, draws: Draws, at: nat)
    ensures Sample(space, draws, at) == Somes(Picks(space, draws, at))
    decreases |space|
  {
    if |space| > 0 {
      var n := |space|;
      var init := space[..n - 1];
      SampleIsPicks(init, draws, at);
      SampleLast(space, draws, at);
      var ps := Picks(space, draws, at);
      assert ps[..n - 1] == Picks(init, draws, at);
      assert ps[n - 1] == Pick1(space, draws, at, n - 1);
      assert Somes(ps) == Somes(ps[..n - 1]) + AsSeq(ps[n - 1]);
    }
  }

  /** With distinct choice names, only choice `i` can contribute a pair named
      after it. */
  lemma PicksChoice(space: SearchSpace, draws: Draws, at: nat, i: nat, a: string)
    requires Valid(space) && i < |space|
    ensures Some(Pair(space[i].key, a)) in Picks(space, draws, at) <==>
      Pick1(space, draws, at, i) == Some(Pair(space[i].key, a))
  {
    var q := Pair(space[i].key, a);
    var ps := Picks(space, draws, at);
    if Some(q) in ps {
      var j :| 0 <= j < |ps| && ps[j] == Some(q);
      assert Pick1(space, draws, at, j) == Some(q);
      assert space[j].key == space[i].key;
    }
    assert ps[i] == Pick1(space, draws, at, i);
  }

  /** Per choice: with distinct choice names, the round holds `(choice i, a)`
      exactly when choice `i`'s draw, number `at + i`, selects `a`. */
  lemma SampleChoice(space: SearchSpace, draws: Draws, at: nat, i: nat, a: string)
    requires Valid(space) && i < |space|
    ensures Pair(space[i].key, a) in Sample(space, draws, at) <==>
      Select(space[i].val, draws(at + i)) == Some(a)
  {
    SampleIsPicks(space, draws, at);
    SomesMember(Picks(space, draws, at), Pair(space[i].key, a));
    PicksChoice(space, draws, at, i, a);
  }

  /** When every draw is covered by its choice's mass, the round selects one
      alternative for every choice. */
  lemma {:induction false} SampleComplete(space: SearchSpace, draws: Draws, at: nat)
    requires NoEmptyChoice(space)
    requires forall i :: 0 <= i < |space| ==> draws(at + i) <= Mass(space[i].val)
    ensures Complete(space, Sample(space, draws, at))
    decreases |space|
  {
    if |space| > 0 {
      var n := |space|;
      var init := space[..n - 1];
      assert forall i :: 0 <= i < |init| ==> init[i] == space[i];
      SampleComplete(init, draws, at);
      var prev := Sample(init, draws, at);
      SelectCovered(space[n - 1].val, draws(at + n - 1));
      var a := Select(space[n - 1].val, draws(at + n - 1)).value;
      SampleLast(space, draws, at);
      assert Pick1(space, draws, at, n - 1) == Some(Pair(space[n - 1].key, a));
      CompleteSnoc(space, prev, Pair(space[n - 1].key, a));
    }
  }

  /** A full assignment of all but the last choice, plus one of the last choice's
      alternatives, is a full assignment. */
  lemma CompleteSnoc(space: SearchSpace, prev: seq<Pair>, q: Pair)
    requires |space| > 0 && Complete(space[..|space| - 1], prev)
    requires q.choice == space[|space| - 1].key && HasKey(space[|space| - 1].val, q.alt)
    ensures Complete(space, prev + [q])
  {
    var pairs := prev + [q];
    forall i | 0 <= i < |space|
      ensures pairs[i].choice == space[i].key && HasKey(space[i].val, pairs[i].alt)
    {
      if i < |space| - 1 {
        assert pairs[i] == prev[i] && space[..|space| - 1][i] == space[i];
      }
    }
  }

  /** What `get_candidate` returns, plus the cursor into the draw stream after the
      call and the number of sampling rounds it made. */
  datatype Generated = Generated(
    candidate: Option<seq<Pair>>,
    text: string,
    history: seq<string>,
    next: nat,
    attempts: nat)

  /** `rounds` blocks of `width` draws, counted one block at a time. */
  function Span(rounds: nat, width: nat): nat {
    if rounds == 0 then 0 else Span(rounds - 1, width) + width
  }

  lemma {:induction false} SpanIsProduct(rounds: nat, width: nat)
    ensures Span(rounds, width) == rounds * width
  {
    if rounds > 0 {
      SpanIsProduct(rounds - 1, width);
    }
  }

  /** The pairs drawn in round `r`, counting from 0, of a call whose first draw is
      number `at`: each round takes the next block of `|space|` draws. */
  function Round(space: SearchSpace, draws: Draws, at: nat, r: nat): (pairs: seq<Pair>)
    ensures Drawable(space, pairs)
    decreases r
  {
    if r == 0 then Sample(space, draws, at) else Round(space, draws, at + |space|, r - 1)
  }

  /** Round `r` is the sampling round whose first draw is number `at + r * |space|`. */
  lemma {:induction false} RoundIsSample(space: SearchSpace, draws: Draws, at: nat, r: nat)
    ensures Round(space, draws, at, r) == Sample(space, draws, at + Span(r, |space|))
    decreases r
  {
    if r > 0 {
      RoundIsSample(space, draws, at + |space|, r - 1);
      SpanFirst(r, |space|);
    }
  }

  lemma {:induction false} SpanFirst(rounds: nat, width: nat)
    requires rounds > 0
    ensures Span(rounds, width) == width + Span(rounds - 1, width)
  {
    SpanIsProduct(rounds, width);
    SpanIsProduct(rounds - 1, width);
  }

  /** The retry loop (lines 45-73) from attempt number `attempt` on; that attempt
      is round `attempt - 1`. Every round before the last drew a string already
      in the history; the last one is the candidate returned or, when the loop
      gives up, was a duplicate as well. */
  function Attempt(space: SearchSpace, history: seq<string>, draws: Draws, at: nat,
                   attempt: nat, max: nat): (g: Generated)
    requires 1 <= attempt <= max
    ensures attempt <= g.attempts <= max
    ensures g.next == at + Span(g.attempts, |space|)
    ensures g.candidate.Some? ==>
      && Drawable(space, g.candidate.value)
      && g.text == Encode(g.candidate.value)
      && g.text !in history
      && g.history == history + [g.text]
    ensures g.candidate.None? ==> g.text == "" && g.history == history && g.attempts == max
    ensures forall r :: attempt - 1 <= r < g.attempts - 1 ==> Encode(Round(space, draws, at, r)) in history
    ensures g.candidate.Some? ==> g.candidate.value == Round(space, draws, at, g.attempts - 1)
    ensures g.candidate.None? ==> Encode(Round(space, draws, at, g.attempts - 1)) in history
    decreases max - attempt
  {
    var pairs := Round(space, draws, at, attempt - 1);
    var text := Encode(pairs);
    if text !in history then
      Generated(Some(pairs), text, history + [text], at + Span(attempt, |space|), attempt)
    else if attempt + 1 > max then
      Generated(None, "", history, at + Span(attempt, |space|), attempt)
    else
      Attempt(space, history, draws, at, attempt + 1, max)
  }

  /** `get_candidate`. On success the new encoding was not in the history and is
      appended to it; on exhaustion the string is empty and the history unchanged;
      at most `max_attempts` rounds are made. */
  function Generate(space: SearchSpace, history: seq<string>, draws: Draws, at: nat): (g: Generated)
    requires NoEmptyChoice(space)
    ensures 1 <= g.attempts <= MaxAttempts(space)
    ensures g.next == at + Span(g.attempts, |space|)
    ensures at + |space| <= g.next
    ensures g.candidate.Some? ==>
      && Drawable(space, g.candidate.value)
      && g.text == Encode(g.candidate.value)
      && g.text !in history
      && g.history == history + [g.text]
    ensures g.candidate.None? ==> g.text == "" && g.history == history
    ensures forall r :: 0 <= r < g.attempts - 1 ==> Encode(Round(space, draws, at, r)) in history
    ensures g.candidate.Some? ==> g.candidate.value == Round(space, draws, at, g.attempts - 1)
    ensures g.candidate.None? ==>
      g.attempts == MaxAttempts(space) && Encode(Round(space, draws, at, g.attempts - 1)) in history
    ensures Distinct(history) ==> Distinct(g.history)
  {
    CombinationsPositive(space);
    var g := Attempt(space, history, draws, at, 1, MaxAttempts(space));
    if g.candidate.Some? && Distinct(history) then
      DistinctAppend(history, g.text);
      g
    else g
  }

  /** `get_candidate` takes one draw per choice in each of its rounds. */
  lemma GenerateDraws(space: SearchSpace, history: seq<string>, draws: Draws, at: nat)
    requires NoEmptyChoice(space)
    ensures var g := Generate(space, history, draws, at);
      g.next == at + g.attempts * |space|
  {
    SpanIsProduct(Generate(space, history, draws, at).attempts, |space|);
  }

  lemma DistinctAppend(history: seq<string>, text: string)
    requires Distinct(history) && text !in history
    ensures Distinct(history + [text])
  {
    var h := history + [text];
    forall i, j | 0 <= i < j < |h|
      ensures h[i] != h[j]
    {
      if j < |history| {
        assert h[i] == history[i] && h[j] == history[j];
      } else {
        assert h[i] == history[i];
      }
    }
  }

  /** Every encoding one round could produce is already in the history. */
  ghost predicate Exhausted(space: SearchSpace, history: seq<string>) {
    forall pairs :: Drawable(space, pairs) ==> Encode(pairs) in history
  }

  lemma {:induction false} AttemptExhausted(space: SearchSpace, history: seq<string>, draws: Draws,
                                            at: nat, attempt: nat, max: nat)
    requires 1 <= attempt <= max
    requires Exhausted(space, history)
    ensures Attempt(space, history, draws, at, attempt, max).candidate.None?
    decreases max - attempt
  {
    assert Encode(Round(space, draws, at, attempt - 1)) in history;
    if attempt + 1 <= max {
      AttemptExhausted(space, history, draws, at, attempt + 1, max);
    }
  }

  /** Exhaustion: when the history holds every encoding the space can produce,
      the generator reports None whatever the draws. */
  lemma GenerateExhausted(space: SearchSpace, history: seq<string>, draws: Draws, at: nat)
    requires NoEmptyChoice(space)
    requires Exhausted(space, history)
    ensures Generate(space, history, draws, at).candidate.None?
    ensures Generate(space, history, draws, at).attempts == MaxAttempts(space)
  {
    CombinationsPositive(space);
    AttemptExhausted(space, history, draws, at, 1, MaxAttempts(space));
  }

  /** Every full combination has been generated before. */
  ghost predicate AllCombinationsSeen(space: SearchSpace, history: seq<string>) {
    forall pairs :: Complete(space, pairs) ==> Encode(pairs) in history
  }

  /** With normalised probabilities and draws in [0, 1] every round draws a full
      combination, so its encoding is one the history already holds. */
  lemma RoundSeen(space: SearchSpace, history: seq<string>, draws: Draws, at: nat, r: nat)
    requires NoEmptyChoice(space) && Normalised(space)
    requires forall j :: draws(j) <= 1.0
    requires AllCombinationsSeen(space, history)
    ensures Encode(Round(space, draws, at, r)) in history
  {
    var start := at + Span(r, |space|);
    forall i | 0 <= i < |space|
      ensures draws(start + i) <= Mass(space[i].val)
    {
      assert Distribution(space[i].val);
    }
    SampleComplete(space, draws, start);
    RoundIsSample(space, draws, at, r);
  }

  lemma {:induction false} AttemptAllSeen(space: SearchSpace, history: seq<string>, draws: Draws,
                                          at: nat, attempt: nat, max: nat)
    requires 1 <= attempt <= max
    requires NoEmptyChoice(space) && Normalised(space)
    requires forall j :: draws(j) <= 1.0
    requires AllCombinationsSeen(space, history)
    ensures Attempt(space, history, draws, at, attempt, max).candidate.None?
    decreases max - attempt
  {
    RoundSeen(space, history, draws, at, attempt - 1);
    if attempt + 1 <= max {
      AttemptAllSeen(space, history, draws, at, attempt + 1, max);
    }
  }

  /** With normalised probabilities and draws in [0, 1] every round yields a full
      combination, so once all of them are in the history the generator reports
      None. */
  lemma GenerateAllSeen(space: SearchSpace, history: seq<string>, draws: Draws, at: nat)
    requires NoEmptyChoice(space) && Normalised(space)
    requires forall j :: draws(j) <= 1.0
    requires AllCombinationsSeen(space, history)
    ensures Generate(space, history, draws, at).candidate.None?
  {
    CombinationsPositive(space);
    AttemptAllSeen(space, history, draws, at, 1, MaxAttempts(space));
  }
}

=== FILE: loop.dfy ===
/** A `while` loop with a step budget: `next` is applied until `done` holds or
    the budget runs out, and `ok` is the shape every iteration keeps. */
module Loop {

  /** `next` may be taken from every unfinished state of the right shape and
      keeps that shape. */
  ghost predicate Closed<S(!new)>(next: S --> S, done: S -> bool, ok: S -> bool) {
    forall x :: ok(x) && !done(x) ==> next.requires(x) && ok(next(x))
  }

  /** At most `fuel` rounds of `next`, stopping early once `done` holds. */
  function Iterate<S(!new)>(next: S --> S, done: S -> bool, ok: S -> bool, s: S, fuel: nat): (r: S)
    requires ok(s) && Closed(next, done, ok)
    ensures ok(r)
    ensures fuel == 0 || done(s) ==> r == s
    decreases fuel
  {
    if fuel == 0 || done(s) then s
    else Iterate(next, done, ok, next(s), fuel - 1)
  }

  /** Induction over the loop: a property of the starting state that every
      round preserves holds wherever the loop stops. */
  lemma {:induction false} IterateKeeps<S(!new)>(next: S --> S, done: S -> bool, ok: S -> bool,
                                                  P: S -> bool, s: S, fuel: nat)
    requires ok(s) && Closed(next, done, ok) && P(s)
    requires forall x :: ok(x) && !done(x) && P(x) ==> P(next(x))
    ensures P(Iterate(next, done, ok, s, fuel))
    decreases fuel
  {
    if fuel > 0 && !done(s) {
      IterateKeeps(next, done, ok, P, next(s), fuel - 1);
    }
  }
}

=== FILE: ordered_dict.dfy ===
/** Python's `dict` keyed by strings: items kept in insertion order. */
module OrderedDict {
  import opened Wrappers

  /** One key/value slot. */
  datatype Item<V> = Item(key: string, val: V)

  /** A dictionary is the sequence of its items in insertion order. */
  type Dict<V> = seq<Item<V>>

  /** Keys are pairwise distinct, as in every Python dict. */
  predicate Valid<V>(d: Dict<V>) {
    forall i, j :: 0 <= i < j < |d| ==> d[i].key != d[j].key
  }

  /** The keys in iteration order (`d.keys()`). */
  function Keys<V>(d: Dict<V>): (ks: seq<string>)
    ensures |ks| == |d|
    ensures forall i :: 0 <= i < |d| ==> ks[i] == d[i].key
  {
    seq(|d|, i requires 0 <= i < |d| => d[i].key)
  }

  /** `k in d`. */
  predicate HasKey<V>(d: Dict<V>, k: string) {
    exists i :: 0 <= i < |d| && d[i].key == k
  }

  /** Position of the first item with key `k`, or -1 when there is none. */
  function IndexOf<V>(d: Dict<V>, k: string): (i: int)
    ensures -1 <= i < |d|
    ensures i >= 0 ==> d[i].key == k && forall j :: 0 <= j < i ==> d[j].key != k
    ensures i == -1 <==> !HasKey(d, k)
    decreases |d|
  {
    if |d| == 0 then -1
    else if d[|d| - 1].key == k && IndexOf(d[..|d| - 1], k) == -1 then |d| - 1
    else IndexOf(d[..|d| - 1], k)
  }

  /** `d[k]`, or None when the key is missing. */
  function Get<V>(d: Dict<V>, k: string): (r: Option<V>)
    ensures r.Some? <==> HasKey(d, k)
    ensures Valid(d) ==> forall i :: 0 <= i < |d| && d[i].key == k ==> r == Some(d[i].val)
  {
    var i := IndexOf(d, k);
    if i >= 0 then Some(d[i].val) else None
  }

  /** `d[k] = v`: an existing key keeps its place, a new key goes last, and every
      other key keeps its place and value. */
  function Put<V>(d: Dict<V>, k: string, v: V): (r: Dict<V>)
    requires Valid(d)
    ensures Valid(r)
    ensures |r| == if HasKey(d, k) then |d| else |d| + 1
    ensures forall i :: 0 <= i < |d| ==>
      r[i].key == d[i].key && r[i].val == if d[i].key == k then v else d[i].val
    ensures !HasKey(d, k) ==> r[|d|].key == k && r[|d|].val == v
  {
    var i := IndexOf(d, k);
    if i >= 0 then d[i := Item(k, v)] else d + [Item(k, v)]
  }

  /** Lookups after `d[k] = v`. */
  lemma PutGet<V>(d: Dict<V>, k: string, v: V)
    requires Valid(d)
    ensures Get(Put(d, k, v), k) == Some(v)
    ensures forall k' :: k' != k ==> Get(Put(d, k, v), k') == Get(d, k')
    ensures forall k' :: HasKey(Put(d, k, v), k') <==> HasKey(d, k') || k' == k
  {
    var r := Put(d, k, v);
    if HasKey(d, k) {
      var i := IndexOf(d, k);
      assert r[i].key == k;
    } else {
      assert r[|d|].key == k;
    }
    forall k' | k' != k
      ensures Get(r, k') == Get(d, k')
    {
      if HasKey(d, k') {
        var i := IndexOf(d, k');
        assert r[i].key == k';
      }
    }
  }

  /** Lookup positions depend on the keys alone. */
  lemma {:induction false} SameKeys<V, W>(d1: Dict<V>, d2: Dict<W>, k: string)
    requires Keys(d1) == Keys(d2)
    ensures IndexOf(d1, k) == IndexOf(d2, k)
    ensures HasKey(d1, k) <==> HasKey(d2, k)
    ensures Valid(d1) <==> Valid(d2)
    decreases |d1|
  {
    assert forall i :: 0 <= i < |d1| ==> d1[i].key == Keys(d1)[i] == d2[i].key;
    if |d1| > 0 {
      var n := |d1|;
      assert Keys(d1[..n - 1]) == Keys(d1)[..n - 1] == Keys(d2)[..n - 1] == Keys(d2[..n - 1]);
      SameKeys(d1[..n - 1], d2[..n - 1], k);
    }
  }
}

=== FILE: population.dfy ===
/** The population of the k best candidates, kept sorted ascending by score
    (kbestsearch.py lines 138-140, 148-151 and 176-178), and the best record
    (lines 26-34). */
module Population {
  import opened Wrappers

  /** Trial identifier: `'r{n}'` during seeding, the plain number `n` afterwards. */
  datatype TrialId = Seeded(n: nat) | Adapted(n: nat)

  /** `(candidate_string, performance, candidate_num)`: a population entry, and
      equally the record of one evaluated trial. */
  datatype Entry = Entry(text: string, score: real, trial: TrialId)

  /** Ascending by score. */
  predicate Sorted(pop: seq<Entry>) {
    forall i, j :: 0 <= i < j < |pop| ==> pop[i].score <= pop[j].score
  }

  /** Every score is at least `low`. */
  predicate AtLeast(pop: seq<Entry>, low: real) {
    forall i :: 0 <= i < |pop| ==> pop[i].score >= low
  }

  /** `sorted(population + [e], key=score)` for a sorted population: Python's sort
      is stable, so `e` lands after every entry with an equal score. */
  function InsertAfterTies(pop: seq<Entry>, e: Entry): (r: seq<Entry>)
    requires Sorted(pop)
    ensures Sorted(r)
    ensures multiset(r) == multiset(pop) + multiset{e}
    ensures |r| == |pop| + 1
    ensures r[0].score == if |pop| > 0 && pop[0].score <= e.score then pop[0].score else e.score
    decreases |pop|
  {
    if |pop| == 0 then [e]
    else if pop[0].score <= e.score then
      var rest := InsertAfterTies(pop[1..], e);
      KeepHead(pop, e, rest);
      [pop[0]] + rest
    else
      SortedCons(e, pop);
      [e] + pop
  }

  /** `sorted([e] + population[1:], key=score)` for a sorted tail: the stable sort
      puts `e` before every entry with an equal score. */
  function InsertBeforeTies(pop: seq<Entry>, e: Entry): (r: seq<Entry>)
    requires Sorted(pop)
    ensures Sorted(r)
    ensures multiset(r) == multiset(pop) + multiset{e}
    ensures |r| == |pop| + 1
    ensures r[0].score == if |pop| > 0 && pop[0].score < e.score then pop[0].score else e.score
    decreases |pop|
  {
    if |pop| == 0 then [e]
    else if pop[0].score < e.score then
      var rest := InsertBeforeTies(pop[1..], e);
      KeepHead(pop, e, rest);
      [pop[0]] + rest
    else
      SortedCons(e, pop);
      [e] + pop
  }

  /** The head stays in front of the tail with `e` inserted. */
  lemma KeepHead(pop: seq<Entry>, e: Entry, rest: seq<Entry>)
    requires |pop| > 0 && Sorted(pop) && Sorted(rest) && pop[0].score <= e.score
    requires multiset(rest) == multiset(pop[1..]) + multiset{e}
    requires |rest| > 0 && (rest[0] == e || (|pop| > 1 && rest[0].score == pop[1].score))
    ensures Sorted([pop[0]] + rest)
    ensures multiset([pop[0]] + rest) == multiset(pop) + multiset{e}
  {
    HeadTail(pop);
    SortedCons(pop[0], rest);
  }

  lemma HeadTail(pop: seq<Entry>)
    requires |pop| > 0
    ensures multiset(pop) == multiset{pop[0]} + multiset(pop[1..])
  {
    assert [pop[0]] + pop[1..] == pop;
  }

  lemma SortedCons(x: Entry, rest: seq<Entry>)
    requires Sorted(rest)
    requires |rest| > 0 ==> x.score <= rest[0].score
    ensures Sorted([x] + rest)
  {
    var r := [x] + rest;
    forall i, j | 0 <= i < j < |r|
      ensures r[i].score <= r[j].score
    {
      assert r[j] == rest[j - 1];
      if i > 0 {
        assert r[i] == rest[i - 1];
      }
    }
  }

  /** Seeding admission (lines 138-140): a score at or above the threshold is
      added, keeping the population sorted; any other leaves it unchanged. */
  function Admit(pop: seq<Entry>, e: Entry, threshold: real): (r: seq<Entry>)
    requires Sorted(pop)
    ensures Sorted(r)
    ensures e.score >= threshold ==> multiset(r) == multiset(pop) + multiset{e}
    ensures e.score < threshold ==> r == pop
  {
    if e.score >= threshold then InsertAfterTies(pop, e) else pop
  }

  /** Adaptive replacement (lines 176-178): a score strictly above the worst
      entry's overwrites that entry; the population stays sorted, keeps its size,
      and its minimum never decreases. A tie or a lower score changes nothing. */
  function Replace(pop: seq<Entry>, e: Entry): (r: seq<Entry>)
    requires |pop| > 0 && Sorted(pop)
    ensures Sorted(r)
    ensures |r| == |pop|
    ensures e.score > pop[0].score ==>
      multiset(r) == multiset(pop) - multiset{pop[0]} + multiset{e}
    ensures e.score > pop[0].score ==> r[0].score >= pop[0].score && AtLeast(r, pop[0].score)
    ensures e.score <= pop[0].score ==> r == pop
  {
    if e.score > pop[0].score then
      var r := InsertBeforeTies(pop[1..], e);
      assert [pop[0]] + pop[1..] == pop;
      assert multiset(pop) == multiset{pop[0]} + multiset(pop[1..]);
      forall i | 0 <= i < |r|
        ensures r[i].score >= pop[0].score
      {
        assert r[i] in multiset(r);
        if r[i] != e {
          assert r[i] in multiset(pop[1..]);
        }
      }
      r
    else pop
  }

  /** No two entries share a candidate string. */
  predicate DistinctTexts(pop: seq<Entry>) {
    forall i, j :: 0 <= i < j < |pop| ==> pop[i].text != pop[j].text
  }

  /** No entry has the string `text`. */
  predicate Lacks(pop: seq<Entry>, text: string) {
    forall i :: 0 <= i < |pop| ==> pop[i].text != text
  }

  lemma ConsDistinct(x: Entry, rest: seq<Entry>)
    requires DistinctTexts(rest) && Lacks(rest, x.text)
    ensures DistinctTexts([x] + rest)
  {
    var r := [x] + rest;
    forall i, j | 0 <= i < j < |r|
      ensures r[i].text != r[j].text
    {
      assert r[j] == rest[j - 1];
      if i > 0 {
        assert r[i] == rest[i - 1];
      }
    }
  }

  /** A string absent from `q` and from `e` is absent from any arrangement of both. */
  lemma LacksArranged(r: seq<Entry>, q: seq<Entry>, e: Entry, text: string)
    requires multiset(r) == multiset(q) + multiset{e}
    requires Lacks(q, text) && e.text != text
    ensures Lacks(r, text)
  {
    forall j | 0 <= j < |r|
      ensures r[j].text != text
    {
      assert r[j] in multiset(r);
      if r[j] != e {
        assert r[j] in q;
      }
    }
  }

  /** An entry with a fresh string joins after its ties without a repeat. */
  lemma {:induction false} InsertAfterDistinct(pop: seq<Entry>, e: Entry)
    requires Sorted(pop) && DistinctTexts(pop) && Lacks(pop, e.text)
    ensures DistinctTexts(InsertAfterTies(pop, e))
    decreases |pop|
  {
    if |pop| > 0 && pop[0].score <= e.score {
      var rest := InsertAfterTies(pop[1..], e);
      InsertAfterDistinct(pop[1..], e);
      LacksArranged(rest, pop[1..], e, pop[0].text);
      ConsDistinct(pop[0], rest);
    } else if |pop| > 0 {
      ConsDistinct(e, pop);
    }
  }

  /** An entry with a fresh string joins before its ties without a repeat. */
  lemma {:induction false} InsertBeforeDistinct(pop: seq<Entry>, e: Entry)
    requires Sorted(pop) && DistinctTexts(pop) && Lacks(pop, e.text)
    ensures DistinctTexts(InsertBeforeTies(pop, e))
    decreases |pop|
  {
    if |pop| > 0 && pop[0].score < e.score {
      var rest := InsertBeforeTies(pop[1..], e);
      InsertBeforeDistinct(pop[1..], e);
      LacksArranged(rest, pop[1..], e, pop[0].text);
      ConsDistinct(pop[0], rest);
    } else if |pop| > 0 {
      ConsDistinct(e, pop);
    }
  }

  /** Admission and replacement with a fresh string keep the strings distinct. */
  lemma AdmitReplaceDistinct(pop: seq<Entry>, e: Entry, threshold: real)
    requires Sorted(pop) && DistinctTexts(pop) && Lacks(pop, e.text)
    ensures DistinctTexts(Admit(pop, e, threshold))
    ensures |pop| > 0 ==> DistinctTexts(Replace(pop, e))
  {
    InsertAfterDistinct(pop, e);
    if |pop| > 0 {
      InsertBeforeDistinct(pop[1..], e);
    }
  }

  /** The best record: `(best, best_performance, best_candidate_num)`. */
  datatype Best = Best(text: Option<string>, score: real, trial: Option<TrialId>)

  /** Lines 108-110: no candidate yet and a score of 0.0. */
  const NoBest: Best := Best(None, 0.0, None)

  /** `update_best`: replace the record exactly when the new score is strictly
      greater; ties and lower scores leave all three fields unchanged. */
  function UpdateBest(b: Best, text: string, score: real, trial: TrialId): (r: Best)
    ensures r.score >= b.score
    ensures score > b.score <==> r != b
    ensures r != b ==> r == Best(Some(text), score, Some(trial))
  {
    if score > b.score then Best(Some(text), score, Some(trial)) else b
  }

  /** The record after a run of trials, starting from `NoBest`. */
  function BestOf(obs: seq<Entry>): Best
    decreases |obs|
  {
    if |obs| == 0 then NoBest
    else
      var o := obs[|obs| - 1];
      UpdateBest(BestOf(obs[..|obs| - 1]), o.text, o.score, o.trial)
  }

  /** Reference: the largest of 0.0 and the scores. */
  function MaxScore(obs: seq<Entry>): real
    decreases |obs|
  {
    if |obs| == 0 then 0.0
    else
      var m := MaxScore(obs[..|obs| - 1]);
      if obs[|obs| - 1].score > m then obs[|obs| - 1].score else m
  }

  /** Index `i` holds the first occurrence of the record's score above 0.0. */
  predicate FirstMaximum(obs: seq<Entry>, i: nat) {
    && i < |obs|
    && obs[i].score == MaxScore(obs)
    && forall j :: 0 <= j < i ==> obs[j].score < obs[i].score
  }

  /** Over a whole run the record holds the maximum of 0.0 and all scores; it names
      a candidate exactly when some score is strictly positive, and then it is the
      earliest trial that reached the maximum (ties keep the earlier record). */
  lemma {:induction false} BestOfIsMaximum(obs: seq<Entry>)
    ensures BestOf(obs).score == MaxScore(obs)
    ensures forall j :: 0 <= j < |obs| ==> obs[j].score <= BestOf(obs).score
    ensures BestOf(obs).text.Some? <==> exists j :: 0 <= j < |obs| && obs[j].score > 0.0
    ensures BestOf(obs).text.None? ==> BestOf(obs) == NoBest
    ensures BestOf(obs).text.Some? ==>
      (exists i: nat :: FirstMaximum(obs, i)
         && BestOf(obs) == Best(Some(obs[i].text), obs[i].score, Some(obs[i].trial)))
    decreases |obs|
  {
    if |obs| > 0 {
      var n := |obs|;
      var init := obs[..n - 1];
      BestOfIsMaximum(init);
      assert forall j :: 0 <= j < n - 1 ==> obs[j] == init[j];
      var b := BestOf(init);
      if obs[n - 1].score > b.score {
        assert FirstMaximum(obs, n - 1);
      } else if b.text.Some? {
        var i: nat :| FirstMaximum(init, i)
          && b == Best(Some(init[i].text), init[i].score, Some(init[i].trial));
        assert FirstMaximum(obs, i);
      }
    }
  }

  /** Best score is monotone along a run: a longer run never has a lower record. */
  lemma {:induction false} BestMonotone(obs: seq<Entry>, m: nat)
    requires m <= |obs|
    ensures BestOf(obs[..m]).score <= BestOf(obs).score
    decreases |obs| - m
  {
    if m < |obs| {
      BestMonotone(obs, m + 1);
      assert obs[..m + 1][..m] == obs[..m];
    } else {
      assert obs[..m] == obs;
    }
  }
}

=== FILE: search.dfy ===
/** The two-phase driver `search` (kbestsearch.py lines 104-197): random seeding
    of a population of `k` candidates, then adaptive search that samples from
    the population's softmax distribution while cooling the temperature.
    One loop iteration of either phase is one `Step`. */
module Search {
  import opened Wrappers
  import opened OrderedDict
  import opened Encoding
  import opened Space
  import opened Generator
  import opened Population
  import opened SpaceModel
  import opened Annealing
  import opened Loop

  /** The keyword arguments of `search`. */
  datatype Config = Config(
    k: int,
    startTemperature: int,
    endTemperature: int,
    temperatureDrop: int,
    threshold: real)

  /** What the search cannot compute itself: the stream of `random.uniform(0, 1)`
      draws, the caller's `trainval`, and `math.exp`. */
  datatype Env = Env(draws: Draws, trainval: seq<Pair> -> real, exp: real -> real)

  ghost predicate ExpPositive(env: Env) {
    forall x :: env.exp(x) > 0.0
  }

  /** Why the search ended: no unexplored candidate (line 129 or 167), the
      end-temperature stop (line 189), an exception out of
      `update_search_space`, an IndexError on `population[0]` when `k` is 0,
      an UnboundLocalError out of `get_candidate` when a choice has no
      alternatives, or a negative `k`, for which the seeding loop never runs
      and the test at line 148 fails, so `search` returns at once. */
  datatype Stop = Exhausted | Frozen | Raised(fault: Fault) | NoWorstEntry | NoCandidate | NegativeK

  datatype Phase = Seeding | Adaptive | Stopped(why: Stop)

  /** Stopped by an exception out of `update_search_space`. */
  predicate Raising(p: Phase) {
    p.Stopped? && p.why.Raised?
  }

  /** The local variables of `search`, plus every evaluated trial in order
      (`trials`) and the position in the draw stream (`cursor`). */
  datatype State = State(
    phase: Phase,
    space: SearchSpace,
    history: seq<string>,
    trials: seq<Entry>,
    best: Best,
    population: seq<Entry>,
    anneal: Anneal,
    seedNum: nat,
    trialNum: nat,
    cursor: nat)

  function ScheduleOf(cfg: Config): Schedule {
    Schedule(cfg.k, cfg.endTemperature, cfg.temperatureDrop)
  }

  /** Lines 106-123: empty history, no best, uniform space, empty population. */
  function Start(raw: RawSpace, cfg: Config): (s: State)
    ensures s.phase == Seeding && s.best == NoBest && s.population == []
    ensures s.history == [] && s.trials == []
    ensures Keys(s.space) == Keys(raw)
    ensures forall i :: 0 <= i < |raw| ==> s.space[i].val == Uniform(raw[i].val)
  {
    State(Seeding, InitialSpace(raw), [], [], NoBest, [], Anneal(cfg.startTemperature, 0), 1, 1, 0)
  }

  /** The most entries the population can hold: `k`, or none when `k` is negative. */
  function Room(cfg: Config): nat {
    if cfg.k < 0 then 0 else cfg.k
  }

  /** The shape every step relies on: a sorted population of at most `k`. */
  predicate Shaped(s: State, cfg: Config) {
    Sorted(s.population) && |s.population| <= Room(cfg)
  }

  /** The shape a loop iteration needs: a sorted population of at most `k`,
      holding exactly `k` once adaptive. */
  predicate Ready(s: State, cfg: Config) {
    Shaped(s, cfg) && (s.phase == Adaptive ==> |s.population| == cfg.k)
  }

  /** One seeding iteration (lines 124-145) with fewer than `k` entries. */
  function SeedStep(s: State, cfg: Config, env: Env): (r: State)
    requires s.phase == Seeding && Shaped(s, cfg) && |s.population| < cfg.k
    ensures Shaped(r, cfg)
    ensures r.phase == Seeding || r.phase == Stopped(Exhausted) || r.phase == Stopped(NoCandidate)
    ensures r.phase == Seeding ==>
      && |r.trials| == |s.trials| + 1
      && r.trials[|s.trials|].trial == Seeded(s.seedNum)
      && r.best.score >= s.best.score
      && (r.trials[|s.trials|].score >= cfg.threshold <==> |r.population| == |s.population| + 1)
    ensures r.phase != Seeding ==> r.population == s.population && r.trials == s.trials
    ensures r.phase == Stopped(NoCandidate) <==> !NoEmptyChoice(s.space)
    ensures NoEmptyChoice(s.space) ==>
      var g := Generate(s.space, s.history, env.draws, s.cursor);
      && r.history == g.history && r.cursor == g.next
      && (r.phase == Stopped(Exhausted) <==> g.candidate.None?)
      && (g.candidate.Some? ==>
            && r.trials == s.trials + [Entry(g.text, env.trainval(g.candidate.value), Seeded(s.seedNum))]
            && r.population == Admit(s.population, r.trials[|s.trials|], cfg.threshold))
  {
    if !NoEmptyChoice(s.space) then s.(phase := Stopped(NoCandidate))
    else
      var g := Generate(s.space, s.history, env.draws, s.cursor);
      match g.candidate
      case None => s.(phase := Stopped(Exhausted), history := g.history, cursor := g.next)
      case Some(pairs) =>
        var perf := env.trainval(pairs);
        var id := Seeded(s.seedNum);
        var e := Entry(g.text, perf, id);
        var pop := Admit(s.population, e, cfg.threshold);
        assert |multiset(pop)| == |pop|;
        s.(history := g.history,
           trials := s.trials + [e],
           best := UpdateBest(s.best, g.text, perf, id),
           population := pop,
           seedNum := s.seedNum + 1,
           cursor := g.next)
  }

  /** Lines 148-161 once the population holds `k` entries: the space is rebuilt
      from the population at the start temperature and the counters reset. */
  function BeginAdaptive(s: State, cfg: Config, env: Env): (r: State)
    requires s.phase == Seeding && Shaped(s, cfg) && |s.population| == cfg.k
    requires ExpPositive(env)
    ensures Shaped(r, cfg) && r.population == s.population && r.history == s.history
    ensures r.trials == s.trials && r.best == s.best
    ensures r.anneal == Anneal(cfg.startTemperature, 0)
    ensures r.phase == Adaptive <==> AllDecode(s.population) && (cfg.k == 0 || cfg.startTemperature != 0)
    ensures r.phase == Adaptive ==> WellFormed(r.space) && Normalised(r.space)
    ensures r.phase == Adaptive <==>
      UpdateSearchSpace(s.population, cfg.startTemperature, env.exp) == Success(r.space)
    ensures r.phase.Stopped? ==>
      r.phase == Stopped(Raised(UpdateSearchSpace(s.population, cfg.startTemperature, env.exp).error))
  {
    var a := Anneal(cfg.startTemperature, 0);
    match UpdateSearchSpace(s.population, cfg.startTemperature, env.exp)
    case Failure(f) => s.(phase := Stopped(Raised(f)), anneal := a)
    case Success(space) => s.(phase := Adaptive, space := space, anneal := a, trialNum := 1)
  }

  /** Lines 176-192 for a drawn, evaluated and recorded entry `e`: the worst
      entry is replaced on a strictly higher score, the space is rebuilt at the
      current temperature, and the schedule either cools or stops the search. */
  function Replacement(s: State, e: Entry, cfg: Config, env: Env): (r: State)
    requires s.phase == Adaptive && Shaped(s, cfg) && |s.population| == cfg.k > 0
    requires ExpPositive(env)
    ensures Shaped(r, cfg) && r.best == s.best && r.trials == s.trials && r.history == s.history
    ensures r.cursor == s.cursor
    ensures r.phase == Adaptive || r.phase == Stopped(Frozen) || Raising(r.phase)
    ensures r.phase == Adaptive ==> |r.population| == cfg.k
    ensures r.phase == Adaptive ==> WellFormed(r.space) && Normalised(r.space)
    ensures r.phase == Stopped(Frozen) ==> s.anneal.temperature == cfg.endTemperature
    ensures e.score > s.population[0].score ==>
      multiset(r.population) == multiset(s.population) - multiset{s.population[0]} + multiset{e}
    ensures e.score <= s.population[0].score ==> r.population == s.population
    ensures AtLeast(r.population, s.population[0].score)
    ensures r.phase == Adaptive ==>
      Cool(s.anneal, e.score > s.population[0].score, ScheduleOf(cfg)) == Some(r.anneal)
    ensures !Raising(r.phase) ==>
      (r.phase == Stopped(Frozen) <==> Freezes(s.anneal, e.score > s.population[0].score, ScheduleOf(cfg)))
    ensures r.phase != Adaptive ==> r.anneal.temperature == s.anneal.temperature
    ensures r.population == Replace(s.population, e)
    ensures r.phase == Adaptive || r.phase == Stopped(Frozen) <==>
      UpdateSearchSpace(r.population, s.anneal.temperature, env.exp) == Success(r.space)
    ensures Raising(r.phase) <==> UpdateSearchSpace(r.population, s.anneal.temperature, env.exp).Failure?
    ensures Raising(r.phase) ==>
      r.phase == Stopped(Raised(UpdateSearchSpace(r.population, s.anneal.temperature, env.exp).error))
  {
    var improved := e.score > s.population[0].score;
    var pop := Replace(s.population, e);
    var counted := Anneal(s.anneal.temperature, Counted(s.anneal, improved));
    match UpdateSearchSpace(pop, s.anneal.temperature, env.exp)
    case Failure(f) => s.(phase := Stopped(Raised(f)), population := pop, anneal := counted)
    case Success(space) =>
      match Cool(s.anneal, improved, ScheduleOf(cfg))
      case None => s.(phase := Stopped(Frozen), space := space, population := pop, anneal := counted)
      case Some(a) => s.(space := space, population := pop, anneal := a, trialNum := s.trialNum + 1)
  }

  /** One adaptive iteration (lines 162-197). */
  function AdaptStep(s: State, cfg: Config, env: Env): (r: State)
    requires s.phase == Adaptive && Shaped(s, cfg) && |s.population| == cfg.k
    requires ExpPositive(env)
    ensures Shaped(r, cfg)
    ensures r.phase == Adaptive ==> |r.population| == cfg.k
    ensures r.phase == Adaptive ==> WellFormed(r.space) && Normalised(r.space)
    ensures r.best.score >= s.best.score
    ensures r.phase == Stopped(Frozen) ==> s.anneal.temperature == cfg.endTemperature
    ensures r.phase == Stopped(NoCandidate) <==> !NoEmptyChoice(s.space)
    ensures NoEmptyChoice(s.space) ==>
      var g := Generate(s.space, s.history, env.draws, s.cursor);
      && r.history == g.history && r.cursor == g.next
      && (r.phase == Stopped(Exhausted) <==> g.candidate.None?)
      && (g.candidate.Some? ==>
            r.trials == s.trials + [Entry(g.text, env.trainval(g.candidate.value), Adapted(s.trialNum))])
    ensures r.phase == Adaptive ==>
      UpdateSearchSpace(r.population, s.anneal.temperature, env.exp) == Success(r.space)
  {
    if !NoEmptyChoice(s.space) then s.(phase := Stopped(NoCandidate))
    else
      var g := Generate(s.space, s.history, env.draws, s.cursor);
      match g.candidate
      case None => s.(phase := Stopped(Exhausted), history := g.history, cursor := g.next)
      case Some(pairs) =>
        var perf := env.trainval(pairs);
        var id := Adapted(s.trialNum);
        var e := Entry(g.text, perf, id);
        var s1 := s.(history := g.history,
                     trials := s.trials + [e],
                     best := UpdateBest(s.best, g.text, perf, id),
                     cursor := g.next);
        if |s.population| == 0 then s1.(phase := Stopped(NoWorstEntry))
        else Replacement(s1, e, cfg, env)
  }

  /** One iteration of whichever loop is running; a stopped search stays put. */
  function Step(s: State, cfg: Config, env: Env): (r: State)
    requires Ready(s, cfg)
    requires ExpPositive(env)
    ensures Ready(r, cfg)
    ensures s.phase.Stopped? ==> r == s
    ensures r.best.score >= s.best.score
  {
    match s.phase
    case Stopped(_) => s
    case Seeding =>
      if |s.population| < cfg.k then SeedStep(s, cfg, env)
      else if |s.population| == cfg.k then BeginAdaptive(s, cfg, env)
      else s.(phase := Stopped(NegativeK))
    case Adaptive => AdaptStep(s, cfg, env)
  }

  function ReadyFor(cfg: Config): State -> bool {
    x => Ready(x, cfg)
  }

  /** The `break` out of either loop. */
  function Ended(s: State): bool {
    s.phase.Stopped?
  }

  function Next(cfg: Config, env: Env): State --> State {
    x requires Ready(x, cfg) && ExpPositive(env) => Step(x, cfg, env)
  }

  lemma NextClosed(cfg: Config, env: Env)
    requires ExpPositive(env)
    ensures Closed(Next(cfg, env), Ended, ReadyFor(cfg))
  {
  }

  /** At most `fuel` iterations, stopping early once the search has ended. */
  function Run(s: State, cfg: Config, env: Env, fuel: nat): (r: State)
    requires Ready(s, cfg) && ExpPositive(env)
    ensures Ready(r, cfg)
    ensures fuel == 0 || s.phase.Stopped? ==> r == s
  {
    NextClosed(cfg, env);
    Iterate(Next(cfg, env), Ended, ReadyFor(cfg), s, fuel)
  }

  /** `search(search_space, trainval, ...)`, for at most `fuel` iterations. */
  function SearchRun(raw: RawSpace, cfg: Config, env: Env, fuel: nat): (r: State)
    requires ExpPositive(env)
    ensures Shaped(r, cfg)
  {
    Run(Start(raw, cfg), cfg, env, fuel)
  }

  /** Each population entry is one of the evaluated trials. */
  predicate Observed(pop: seq<Entry>, trials: seq<Entry>) {
    forall i :: 0 <= i < |pop| ==> pop[i] in trials
  }

  /** What holds between any two iterations of `search`. */
  ghost predicate Inv(s: State, cfg: Config) {
    && Shaped(s, cfg)
    && Distinct(s.history)
    && |s.trials| == |s.history|
    && (forall i :: 0 <= i < |s.trials| ==> s.trials[i].text == s.history[i])
    && s.best == BestOf(s.trials)
    && Observed(s.population, s.trials)
    && DistinctTexts(s.population)
    && (s.phase == Seeding ==> AtLeast(s.population, cfg.threshold))
    && (s.phase == Adaptive ==>
          && |s.population| == cfg.k
          && WellFormed(s.space) && Normalised(s.space)
          && (forall c, a :: Offers(s.space, c, a) <==> InPopulation(s.population, c, a))
          && (cfg.k > 0 ==> s.anneal.unsuccessful < cfg.k))
  }

  /** Every entry of `r` is `e` or an entry of `pop`. */
  lemma MembersFrom(r: seq<Entry>, pop: seq<Entry>, e: Entry)
    requires multiset(r) <= multiset(pop) + multiset{e}
    ensures forall i :: 0 <= i < |r| ==> r[i] == e || r[i] in pop
  {
    forall i | 0 <= i < |r|
      ensures r[i] == e || r[i] in pop
    {
      assert r[i] in multiset(r);
    }
  }

  /** Recording one more trial keeps the record equal to the fold over the trials. */
  lemma BestOfSnoc(trials: seq<Entry>, o: Entry)
    ensures BestOf(trials + [o]) == UpdateBest(BestOf(trials), o.text, o.score, o.trial)
  {
    assert (trials + [o])[..|trials|] == trials;
  }

  /** The population after admitting or replacing with an observed `e` is
      still observed. */
  lemma ObservedAfter(r: seq<Entry>, pop: seq<Entry>, e: Entry, trials: seq<Entry>)
    requires Observed(pop, trials) && e in trials
    requires multiset(r) <= multiset(pop) + multiset{e}
    ensures Observed(r, trials)
  {
    MembersFrom(r, pop, e);
    forall i | 0 <= i < |r|
      ensures r[i] in trials
    {
      if r[i] != e {
        var j :| 0 <= j < |pop| && pop[j] == r[i];
      }
    }
  }

  /** Recording more trials keeps the population observed. */
  lemma ObservedGrows(pop: seq<Entry>, trials: seq<Entry>, o: Entry)
    requires Observed(pop, trials)
    ensures Observed(pop, trials + [o])
  {
    forall i | 0 <= i < |pop|
      ensures pop[i] in trials + [o]
    {
      var j :| 0 <= j < |trials| && trials[j] == pop[i];
      assert (trials + [o])[j] == trials[j];
    }
  }

  /** A string absent from the history is on no observed entry. */
  lemma FreshLacks(pop: seq<Entry>, trials: seq<Entry>, history: seq<string>, text: string)
    requires Observed(pop, trials) && |trials| == |history|
    requires forall i :: 0 <= i < |trials| ==> trials[i].text == history[i]
    requires text !in history
    ensures Lacks(pop, text)
  {
    forall i | 0 <= i < |pop|
      ensures pop[i].text != text
    {
      var j :| 0 <= j < |trials| && trials[j] == pop[i];
      assert history[j] == pop[i].text;
    }
  }

  /** The trial bookkeeping after a successful draw. */
  lemma RecordTrial(s: State, g: Generated, o: Entry)
    requires Distinct(s.history) && |s.trials| == |s.history|
    requires forall i :: 0 <= i < |s.trials| ==> s.trials[i].text == s.history[i]
    requires g.candidate.Some? && g.history == s.history + [g.text] && Distinct(g.history)
    requires o.text == g.text
    ensures |s.trials + [o]| == |g.history|
    ensures forall i :: 0 <= i < |s.trials + [o]| ==> (s.trials + [o])[i].text == g.history[i]
    ensures BestOf(s.trials + [o]) == UpdateBest(BestOf(s.trials), o.text, o.score, o.trial)
  {
    BestOfSnoc(s.trials, o);
  }

  /** A seeding trial that draws a fresh candidate keeps the invariant. */
  lemma SeedTrialInv(s: State, cfg: Config, env: Env)
    requires s.phase == Seeding && Inv(s, cfg) && |s.population| < cfg.k
    requires NoEmptyChoice(s.space)
    requires Generate(s.space, s.history, env.draws, s.cursor).candidate.Some?
    ensures Inv(SeedStep(s, cfg, env), cfg)
  {
    var g := Generate(s.space, s.history, env.draws, s.cursor);
    var perf := env.trainval(g.candidate.value);
    var id := Seeded(s.seedNum);
    var e := Entry(g.text, perf, id);
    RecordTrial(s, g, e);
    ObservedGrows(s.population, s.trials, e);
    var pop := Admit(s.population, e, cfg.threshold);
    ObservedAfter(pop, s.population, e, s.trials + [e]);
    MembersFrom(pop, s.population, e);
    FreshLacks(s.population, s.trials, s.history, e.text);
    AdmitReplaceDistinct(s.population, e, cfg.threshold);
    var r := SeedStep(s, cfg, env);
    assert r.trials == s.trials + [e] && r.history == g.history && r.population == pop;
    assert r.best == BestOf(r.trials);
  }

  lemma SeedStepInv(s: State, cfg: Config, env: Env)
    requires s.phase == Seeding && Inv(s, cfg) && |s.population| < cfg.k
    ensures Inv(SeedStep(s, cfg, env), cfg)
  {
    if NoEmptyChoice(s.space) {
      var g := Generate(s.space, s.history, env.draws, s.cursor);
      if g.candidate.Some? {
        SeedTrialInv(s, cfg, env);
      } else {
        var r := SeedStep(s, cfg, env);
        assert r.trials == s.trials && r.history == s.history && r.population == s.population;
        assert r.best == s.best && r.phase.Stopped?;
      }
    }
  }

  lemma BeginAdaptiveInv(s: State, cfg: Config, env: Env)
    requires s.phase == Seeding && Inv(s, cfg) && |s.population| == cfg.k
    requires ExpPositive(env)
    ensures Inv(BeginAdaptive(s, cfg, env), cfg)
  {
  }

  lemma ReplacementInv(s: State, e: Entry, cfg: Config, env: Env)
    requires s.phase == Adaptive && Inv(s, cfg) && cfg.k > 0
    requires e in s.trials && Lacks(s.population, e.text)
    requires ExpPositive(env)
    ensures Inv(Replacement(s, e, cfg, env), cfg)
  {
    var r := Replacement(s, e, cfg, env);
    ObservedAfter(r.population, s.population, e, s.trials);
    AdmitReplaceDistinct(s.population, e, 0.0);
  }

  lemma AdaptStepInv(s: State, cfg: Config, env: Env)
    requires s.phase == Adaptive && Inv(s, cfg)
    requires ExpPositive(env)
    ensures Inv(AdaptStep(s, cfg, env), cfg)
  {
    if NoEmptyChoice(s.space) {
      var g := Generate(s.space, s.history, env.draws, s.cursor);
      if g.candidate.Some? {
        var perf := env.trainval(g.candidate.value);
        var id := Adapted(s.trialNum);
        var e := Entry(g.text, perf, id);
        RecordTrial(s, g, e);
        ObservedGrows(s.population, s.trials, e);
        var s1 := s.(history := g.history,
                     trials := s.trials + [e],
                     best := UpdateBest(s.best, g.text, perf, id),
                     cursor := g.next);
        assert Inv(s1, cfg);
        if |s.population| > 0 {
          assert e in s1.trials;
          FreshLacks(s.population, s.trials, s.history, e.text);
          ReplacementInv(s1, e, cfg, env);
        }
      }
    }
  }

  /** The invariant holds at the start and after every step. */
  lemma StartInv(raw: RawSpace, cfg: Config)
    ensures Inv(Start(raw, cfg), cfg)
  {
  }

  lemma StepInv(s: State, cfg: Config, env: Env)
    requires Inv(s, cfg) && ExpPositive(env)
    ensures Inv(Step(s, cfg, env), cfg)
  {
    match s.phase
    case Stopped(_) =>
    case Seeding =>
      if |s.population| < cfg.k {
        SeedStepInv(s, cfg, env);
      } else if |s.population| == cfg.k {
        BeginAdaptiveInv(s, cfg, env);
      }
    case Adaptive => AdaptStepInv(s, cfg, env);
  }

  /** One step only ever extends the history, the trials and the draw cursor. */
  lemma StepExtends(s: State, cfg: Config, env: Env)
    requires Ready(s, cfg)
    requires ExpPositive(env)
    ensures Extends(s, Step(s, cfg, env))
  {
    match s.phase
    case Stopped(_) =>
    case Seeding =>
      if |s.population| < cfg.k {
        SeedStepExtends(s, cfg, env);
      }
    case Adaptive => AdaptStepExtends(s, cfg, env);
  }

  /** `r` continues `s`: the history, the trials and the draw cursor only grow,
      by at most one trial, and the best score does not fall. */
  predicate Extends(s: State, r: State) {
    && s.history <= r.history
    && s.trials <= r.trials
    && s.cursor <= r.cursor
    && |r.trials| <= |s.trials| + 1
    && r.best.score >= s.best.score
  }

  lemma SeedStepExtends(s: State, cfg: Config, env: Env)
    requires s.phase == Seeding && Shaped(s, cfg) && |s.population| < cfg.k
    ensures Extends(s, SeedStep(s, cfg, env))
  {
    if NoEmptyChoice(s.space) {
      var g := Generate(s.space, s.history, env.draws, s.cursor);
      var r := SeedStep(s, cfg, env);
      assert r.history == g.history && r.cursor == g.next;
      if g.candidate.Some? {
        assert r.trials[..|s.trials|] == s.trials;
      }
    }
  }

  lemma AdaptStepExtends(s: State, cfg: Config, env: Env)
    requires s.phase == Adaptive && Shaped(s, cfg) && |s.population| == cfg.k
    requires ExpPositive(env)
    ensures Extends(s, AdaptStep(s, cfg, env))
  {
    if NoEmptyChoice(s.space) {
      var g := Generate(s.space, s.history, env.draws, s.cursor);
      var r := AdaptStep(s, cfg, env);
      assert r.history == g.history && r.cursor == g.next;
      if g.candidate.Some? {
        assert r.trials[..|s.trials|] == s.trials;
      }
    }
  }

  /** The draw and evaluation of an adaptive step, when a candidate comes out:
      the result is `Replacement` of the recorded state. */
  lemma AdaptStepDrawn(s: State, cfg: Config, env: Env)
    requires s.phase == Adaptive && Shaped(s, cfg) && |s.population| == cfg.k > 0
    requires ExpPositive(env)
    ensures var r := AdaptStep(s, cfg, env);
      || (r.population == s.population && r.anneal == s.anneal && r.phase.Stopped?
          && (r.phase.why == Exhausted || r.phase.why == NoCandidate) && r.trials == s.trials)
      || (&& NoEmptyChoice(s.space)
          && var g := Generate(s.space, s.history, env.draws, s.cursor);
          && g.candidate.Some?
          && r.trials == s.trials + [Entry(g.text, env.trainval(g.candidate.value), Adapted(s.trialNum))]
          && r == Replacement(s.(history := r.history, trials := r.trials, best := r.best, cursor := r.cursor),
                              r.trials[|s.trials|], cfg, env))
  {
    if NoEmptyChoice(s.space) {
      var g := Generate(s.space, s.history, env.draws, s.cursor);
      if g.candidate.Some? {
        var perf := env.trainval(g.candidate.value);
        var e := Entry(g.text, perf, Adapted(s.trialNum));
        var r := AdaptStep(s, cfg, env);
        assert r.trials[|s.trials|] == e;
      }
    }
  }

  /** One adaptive step (lines 162-197): the population's minimum never drops,
      and the population changes only on a score strictly above its worst entry. */
  lemma AdaptStepMinimum(s: State, cfg: Config, env: Env)
    requires s.phase == Adaptive && Shaped(s, cfg) && |s.population| == cfg.k > 0
    requires ExpPositive(env)
    ensures AtLeast(AdaptStep(s, cfg, env).population, s.population[0].score)
    ensures AdaptStep(s, cfg, env).population != s.population ==>
      |AdaptStep(s, cfg, env).trials| == |s.trials| + 1 &&
      AdaptStep(s, cfg, env).trials[|s.trials|].score > s.population[0].score
  {
    AdaptStepDrawn(s, cfg, env);
    assert AtLeast(s.population, s.population[0].score);
  }

  /** The temperature either stays or, while the search goes on, falls by the drop. */
  lemma AdaptStepTemperature(s: State, cfg: Config, env: Env)
    requires s.phase == Adaptive && Shaped(s, cfg) && |s.population| == cfg.k > 0
    requires ExpPositive(env)
    ensures var r := AdaptStep(s, cfg, env);
      r.anneal.temperature == s.anneal.temperature ||
      (r.phase == Adaptive && r.anneal.temperature == s.anneal.temperature - cfg.temperatureDrop)
  {
    AdaptStepDrawn(s, cfg, env);
  }

  /** The search freezes exactly when a candidate was evaluated, the space was
      rebuilt, and the schedule's counter reached `k` at the end temperature. */
  lemma AdaptStepFreezes(s: State, cfg: Config, env: Env)
    requires s.phase == Adaptive && Shaped(s, cfg) && |s.population| == cfg.k > 0
    requires ExpPositive(env)
    ensures var r := AdaptStep(s, cfg, env);
      r.phase == Stopped(Frozen) <==>
        && |r.trials| == |s.trials| + 1
        && !Raising(r.phase)
        && Freezes(s.anneal, r.trials[|s.trials|].score > s.population[0].score, ScheduleOf(cfg))
  {
    if NoEmptyChoice(s.space) {
      var g := Generate(s.space, s.history, env.draws, s.cursor);
      if g.candidate.Some? {
        var perf := env.trainval(g.candidate.value);
        var id := Adapted(s.trialNum);
        var e := Entry(g.text, perf, id);
        var s1 := s.(history := g.history,
                     trials := s.trials + [e],
                     best := UpdateBest(s.best, g.text, perf, id),
                     cursor := g.next);
        var r := Replacement(s1, e, cfg, env);
        assert AdaptStep(s, cfg, env) == r;
        assert r.trials[|s.trials|].score == perf;
      }
    }
  }

  /** From an off-grid temperature an adaptive step never freezes, and the
      temperature stays off the grid. */
  lemma AdaptStepOffGrid(s: State, cfg: Config, env: Env)
    requires s.phase == Adaptive && Shaped(s, cfg) && |s.population| == cfg.k > 0
    requires ExpPositive(env)
    requires !OnGrid(s.anneal.temperature, ScheduleOf(cfg))
    ensures AdaptStep(s, cfg, env).phase != Stopped(Frozen)
    ensures AdaptStep(s, cfg, env).phase == Adaptive ==>
      !OnGrid(AdaptStep(s, cfg, env).anneal.temperature, ScheduleOf(cfg))
  {
    AdaptStepDrawn(s, cfg, env);
    CoolOffGrid(s.anneal, false, ScheduleOf(cfg));
    CoolOffGrid(s.anneal, true, ScheduleOf(cfg));
  }

  /** The invariant holds after any number of steps. */
  lemma RunInv(s: State, cfg: Config, env: Env, fuel: nat)
    requires Inv(s, cfg) && ExpPositive(env)
    ensures Inv(Run(s, cfg, env, fuel), cfg)
  {
    var P := (x: State) => Inv(x, cfg);
    forall x | Ready(x, cfg) && !Ended(x) && P(x)
      ensures P(Next(cfg, env)(x))
    {
      StepInv(x, cfg, env);
    }
    NextClosed(cfg, env);
    IterateKeeps(Next(cfg, env), Ended, ReadyFor(cfg), P, s, fuel);
  }

  /** A run only extends the history and the trials, and never lowers the
      best score. */
  lemma RunExtends(s: State, cfg: Config, env: Env, fuel: nat)
    requires Ready(s, cfg) && ExpPositive(env)
    ensures s.history <= Run(s, cfg, env, fuel).history
    ensures s.trials <= Run(s, cfg, env, fuel).trials
    ensures Run(s, cfg, env, fuel).best.score >= s.best.score
  {
    var P := (x: State) =>
      s.history <= x.history && s.trials <= x.trials && x.best.score >= s.best.score;
    forall x | Ready(x, cfg) && !Ended(x) && P(x)
      ensures P(Next(cfg, env)(x))
    {
      StepExtends(x, cfg, env);
      assert Extends(x, Next(cfg, env)(x));
    }
    NextClosed(cfg, env);
    IterateKeeps(Next(cfg, env), Ended, ReadyFor(cfg), P, s, fuel);
  }

  /** Whatever the draws, the scores and the number of iterations, `search`
      keeps as its record the earliest trial with the highest score (or no
      candidate and 0.0 while no score is positive), never evaluates the same
      candidate string twice, and keeps a sorted population of at most `k`
      entries with distinct strings, each one an evaluated trial; while the
      adaptive loop runs, the space offers exactly the population's pairs. */
  lemma SearchFacts(raw: RawSpace, cfg: Config, env: Env, fuel: nat)
    requires ExpPositive(env)
    ensures var r := SearchRun(raw, cfg, env, fuel);
      && r.best.score == MaxScore(r.trials)
      && (forall j :: 0 <= j < |r.trials| ==> r.trials[j].score <= r.best.score)
      && (r.best.text.Some? <==> exists j :: 0 <= j < |r.trials| && r.trials[j].score > 0.0)
      && (r.best.text.None? ==> r.best == NoBest)
      && (r.best.text.Some? ==>
            exists i: nat :: FirstMaximum(r.trials, i)
              && r.best == Best(Some(r.trials[i].text), r.trials[i].score, Some(r.trials[i].trial)))
    ensures var r := SearchRun(raw, cfg, env, fuel);
      forall i, j :: 0 <= i < j < |r.trials| ==> r.trials[i].text != r.trials[j].text
    ensures var r := SearchRun(raw, cfg, env, fuel);
      Sorted(r.population) && |r.population| <= Room(cfg) && Observed(r.population, r.trials)
    ensures DistinctTexts(SearchRun(raw, cfg, env, fuel).population)
    ensures var r := SearchRun(raw, cfg, env, fuel);
      r.phase == Adaptive ==> forall c, a :: Offers(r.space, c, a) <==> InPopulation(r.population, c, a)
  {
    StartInv(raw, cfg);
    RunInv(Start(raw, cfg), cfg, env, fuel);
    var r := SearchRun(raw, cfg, env, fuel);
    BestOfIsMaximum(r.trials);
  }

  /** With a negative `k` the seeding loop's test `len(population) < k` and the
      test `len(population) == k` at line 148 both fail on the empty population:
      `search` returns after no trial, with no best candidate. */
  lemma NegativeKReturns(raw: RawSpace, cfg: Config, env: Env, fuel: nat)
    requires cfg.k < 0 && fuel > 0 && ExpPositive(env)
    ensures var r := SearchRun(raw, cfg, env, fuel);
      r.phase == Stopped(NegativeK) && r.trials == [] && r.history == [] && r.best == NoBest
  {
    var s := Start(raw, cfg);
    var r := Step(s, cfg, env);
    assert r == s.(phase := Stopped(NegativeK));
    NextClosed(cfg, env);
    assert Next(cfg, env)(s) == r;
    assert Iterate(Next(cfg, env), Ended, ReadyFor(cfg), r, fuel - 1) == r;
  }

  /** In the adaptive phase an iteration is an adaptive step, which leaves the
      search adaptive with `k` entries, or ended. */
  lemma AdaptiveStep(s: State, cfg: Config, env: Env)
    requires s.phase == Adaptive && Shaped(s, cfg) && |s.population| == cfg.k > 0
    requires ExpPositive(env)
    ensures Step(s, cfg, env) == AdaptStep(s, cfg, env)
    ensures Late(Step(s, cfg, env), cfg)
  {
  }

  /** A state of the adaptive phase, or one where the search has ended. */
  predicate Late(s: State, cfg: Config) {
    || (s.phase == Adaptive && Shaped(s, cfg) && |s.population| == cfg.k > 0)
    || (s.phase.Stopped? && Shaped(s, cfg))
  }

  /** Over the adaptive phase the population's minimum never decreases. */
  lemma RunMinimum(s: State, low: real, cfg: Config, env: Env, fuel: nat)
    requires Late(s, cfg) && AtLeast(s.population, low) && ExpPositive(env)
    ensures AtLeast(Run(s, cfg, env, fuel).population, low)
  {
    var P := (x: State) => Late(x, cfg) && AtLeast(x.population, low);
    forall x | Ready(x, cfg) && !Ended(x) && P(x)
      ensures P(Next(cfg, env)(x))
    {
      AdaptiveStep(x, cfg, env);
      AdaptStepMinimum(x, cfg, env);
    }
    NextClosed(cfg, env);
    IterateKeeps(Next(cfg, env), Ended, ReadyFor(cfg), P, s, fuel);
  }

  /** With a non-negative drop the temperature never rises during the adaptive
      phase. */
  lemma RunTemperature(s: State, top: int, cfg: Config, env: Env, fuel: nat)
    requires Late(s, cfg) && s.anneal.temperature <= top && ExpPositive(env)
    requires cfg.temperatureDrop >= 0
    ensures Run(s, cfg, env, fuel).anneal.temperature <= top
  {
    var P := (x: State) => Late(x, cfg) && x.anneal.temperature <= top;
    forall x | Ready(x, cfg) && !Ended(x) && P(x)
      ensures P(Next(cfg, env)(x))
    {
      AdaptiveStep(x, cfg, env);
      AdaptStepTemperature(x, cfg, env);
    }
    NextClosed(cfg, env);
    IterateKeeps(Next(cfg, env), Ended, ReadyFor(cfg), P, s, fuel);
  }

  /** When the drop does not lead exactly onto the end temperature, the adaptive
      phase never stops by freezing: only exhaustion (or an exception) ends it. */
  lemma RunOffGrid(s: State, cfg: Config, env: Env, fuel: nat)
    requires Late(s, cfg) && ExpPositive(env) && s.phase != Stopped(Frozen)
    requires s.phase == Adaptive ==> !OnGrid(s.anneal.temperature, ScheduleOf(cfg))
    ensures Run(s, cfg, env, fuel).phase != Stopped(Frozen)
  {
    var P := (x: State) => Late(x, cfg) && x.phase != Stopped(Frozen) &&
      (x.phase == Adaptive ==> !OnGrid(x.anneal.temperature, ScheduleOf(cfg)));
    forall x | Ready(x, cfg) && !Ended(x) && P(x)
      ensures P(Next(cfg, env)(x))
    {
      AdaptiveStep(x, cfg, env);
      AdaptStepOffGrid(x, cfg, env);
    }
    NextClosed(cfg, env);
    IterateKeeps(Next(cfg, env), Ended, ReadyFor(cfg), P, s, fuel);
  }
}

=== FILE: selection.dfy ===
/** Weighted choice of one alternative from a draw `u` (kbestsearch.py lines 55-64):
    walk the alternatives in order, accumulating probability, and take the first
    one whose running total reaches `u`. There is no fallback: when no running
    total reaches `u`, nothing is selected. */
module Selection {
  import opened Wrappers
  import opened OrderedDict

  /** The running total `value` after the first `n` alternatives. */
  function PrefixSum(alts: Dict<real>, n: nat): real
    requires n <= |alts|
    decreases n
  {
    if n == 0 then 0.0 else PrefixSum(alts, n - 1) + alts[n - 1].val
  }

  /** Total probability mass of one choice. */
  function Mass(alts: Dict<real>): real {
    PrefixSum(alts, |alts|)
  }

  /** The running total once alternative `j` has been added. */
  function Through(alts: Dict<real>, j: nat): real
    requires j < |alts|
  {
    PrefixSum(alts, j + 1)
  }

  /** Index `i` is the first whose running total reaches `u`. */
  predicate FirstReaching(alts: Dict<real>, u: real, i: nat) {
    && i < |alts|
    && Through(alts, i) >= u
    && forall j :: 0 <= j < i ==> Through(alts, j) < u
  }

  /** The loop of lines 58-64 from index `i`, with `value` the total so far. */
  function PickFrom(alts: Dict<real>, i: nat, value: real, u: real): (r: Option<nat>)
    requires i <= |alts|
    requires value == PrefixSum(alts, i)
    requires forall j :: 0 <= j < i ==> Through(alts, j) < u
    ensures r.Some? ==> FirstReaching(alts, u, r.value)
    ensures r.None? ==> forall j :: 0 <= j < |alts| ==> Through(alts, j) < u
    decreases |alts| - i
  {
    if i == |alts| then None
    else
      var v := value + alts[i].val;
      if v >= u then Some(i) else PickFrom(alts, i + 1, v, u)
  }

  /** Index of the selected alternative: the first reaching `u`, or None exactly
      when no running total reaches `u`. */
  function Pick(alts: Dict<real>, u: real): (r: Option<nat>)
    ensures r.Some? ==> FirstReaching(alts, u, r.value)
    ensures r.None? <==> forall j :: 0 <= j < |alts| ==> Through(alts, j) < u
  {
    PickFrom(alts, 0, 0.0, u)
  }

  /** The selected alternative's label. */
  function Select(alts: Dict<real>, u: real): (r: Option<string>)
    ensures r.Some? <==> exists i: nat :: FirstReaching(alts, u, i)
    ensures r.Some? ==> exists i: nat :: FirstReaching(alts, u, i) && alts[i].key == r.value
  {
    match Pick(alts, u)
    case None =>
      assert forall i :: !FirstReaching(alts, u, i);
      None
    case Some(i) => Some(alts[i].key)
  }

  /** At most one index is the first to reach `u`. */
  lemma FirstReachingUnique(alts: Dict<real>, u: real, i: nat, j: nat)
    requires FirstReaching(alts, u, i) && FirstReaching(alts, u, j)
    ensures i == j
  {
  }

  /** A draw no larger than the choice's total mass always selects something. */
  lemma SelectCovered(alts: Dict<real>, u: real)
    requires |alts| > 0
    requires u <= Mass(alts)
    ensures Select(alts, u).Some?
    ensures HasKey(alts, Select(alts, u).value)
  {
    assert Through(alts, |alts| - 1) >= u;
    var i := Pick(alts, u).value;
    assert Keys(alts)[i] == alts[i].key;
  }

  /** No fallback: when the whole mass is below the draw, the choice is left out. */
  lemma SelectShortfall(alts: Dict<real>, u: real)
    requires forall i :: 0 <= i < |alts| ==> alts[i].val >= 0.0
    requires Mass(alts) < u
    ensures Select(alts, u) == None
  {
    PrefixBelowMass(alts, |alts|);
  }

  /** With non-negative probabilities every running total is at most the mass. */
  lemma {:induction false} PrefixBelowMass(alts: Dict<real>, n: nat)
    requires n <= |alts|
    requires forall i :: 0 <= i < |alts| ==> alts[i].val >= 0.0
    ensures forall j :: 0 <= j <= n ==> PrefixSum(alts, j) <= PrefixSum(alts, n)
    decreases n
  {
    if n > 0 {
      PrefixBelowMass(alts, n - 1);
    }
  }
}

=== FILE: space.dfy ===
/** The search space: for every choice, its alternatives with their probabilities,
    and its uniform initialisation (kbestsearch.py lines 113-118). */
module Space {
  import opened OrderedDict
  import opened Selection

  /** `search_space[choice][alternative] == probability`. */
  type SearchSpace = Dict<Dict<real>>

  /** The caller's configuration: every choice with its list of alternatives. */
  type RawSpace = Dict<seq<string>>

  predicate Distinct(xs: seq<string>) {
    forall i, j :: 0 <= i < j < |xs| ==> xs[i] != xs[j]
  }

  /** Every choice offers at least one alternative. */
  predicate NoEmptyChoice(space: SearchSpace) {
    forall i :: 0 <= i < |space| ==> |space[i].val| > 0
  }

  /** Distinct choices, distinct alternatives within each, none empty. */
  predicate WellFormed(space: SearchSpace) {
    && Valid(space)
    && NoEmptyChoice(space)
    && forall i :: 0 <= i < |space| ==> Valid(space[i].val)
  }

  /** Non-negative probabilities summing to one. */
  predicate Distribution(alts: Dict<real>) {
    && (forall i :: 0 <= i < |alts| ==> alts[i].val >= 0.0)
    && Mass(alts) == 1.0
  }

  predicate Normalised(space: SearchSpace) {
    forall i :: 0 <= i < |space| ==> Distribution(space[i].val)
  }

  /** Line 118 repeated over the alternatives: each gets probability `p`. */
  function UniformOver(alts: seq<string>, p: real): (d: Dict<real>)
    ensures Valid(d)
    ensures |d| <= |alts|
    decreases |alts|
  {
    if |alts| == 0 then []
    else Put(UniformOver(alts[..|alts| - 1], p), alts[|alts| - 1], p)
  }

  /** Every alternative written gets the same value `p`, and exactly the
      listed alternatives get a key. */
  lemma UniformOverContents(alts: seq<string>, p: real)
    ensures forall i :: 0 <= i < |UniformOver(alts, p)| ==> UniformOver(alts, p)[i].val == p
    ensures forall a :: HasKey(UniformOver(alts, p), a) <==> a in alts
  {
    UniformOverValues(alts, p);
    UniformOverHasKey(alts, p);
  }

  lemma {:induction false} UniformOverValues(alts: seq<string>, p: real)
    ensures forall i :: 0 <= i < |UniformOver(alts, p)| ==> UniformOver(alts, p)[i].val == p
    decreases |alts|
  {
    if |alts| > 0 {
      UniformOverValues(alts[..|alts| - 1], p);
    }
  }

  lemma {:induction false} UniformOverHasKey(alts: seq<string>, p: real)
    ensures forall a :: HasKey(UniformOver(alts, p), a) <==> a in alts
    decreases |alts|
  {
    if |alts| > 0 {
      var n := |alts|;
      var init := alts[..n - 1];
      UniformOverHasKey(init, p);
      PutGet(UniformOver(init, p), alts[n - 1], p);
      assert alts == init + [alts[n - 1]];
    }
  }

  /** Without duplicates the keys are the alternatives, in order. */
  lemma {:induction false} UniformOverKeys(alts: seq<string>, p: real)
    requires Distinct(alts)
    ensures Keys(UniformOver(alts, p)) == alts
    decreases |alts|
  {
    if |alts| > 0 {
      var n := |alts|;
      var init := alts[..n - 1];
      var prev := UniformOver(init, p);
      assert Distinct(init);
      UniformOverKeys(init, p);
      UniformOverHasKey(init, p);
      assert alts[n - 1] !in init;
      assert !HasKey(prev, alts[n - 1]);
      var d := UniformOver(alts, p);
      assert d == Put(prev, alts[n - 1], p);
      assert |d| == n;
      forall i | 0 <= i < n
        ensures Keys(d)[i] == alts[i]
      {
        if i < n - 1 {
          assert d[i].key == prev[i].key == Keys(prev)[i];
        }
      }
    }
  }

  /** The uniform distribution over one choice's alternatives. */
  function Uniform(alts: seq<string>): Dict<real> {
    if |alts| == 0 then [] else UniformOver(alts, 1.0 / (|alts| as real))
  }

  lemma {:induction false} MassOfConstant(d: Dict<real>, p: real, n: nat)
    requires n <= |d|
    requires forall i :: 0 <= i < |d| ==> d[i].val == p
    ensures PrefixSum(d, n) == (n as real) * p
    decreases n
  {
    if n > 0 {
      MassOfConstant(d, p, n - 1);
    }
  }

  /** Uniform initialisation of one choice: every alternative is present with
      probability `1/n`, and a duplicate-free list gives a distribution. */
  lemma UniformIsDistribution(alts: seq<string>)
    requires |alts| > 0
    ensures Valid(Uniform(alts)) && |Uniform(alts)| > 0
    ensures forall a :: HasKey(Uniform(alts), a) <==> a in alts
    ensures forall i :: 0 <= i < |Uniform(alts)| ==> Uniform(alts)[i].val == 1.0 / (|alts| as real)
    ensures Distinct(alts) ==> Keys(Uniform(alts)) == alts && Distribution(Uniform(alts))
  {
    var p := 1.0 / (|alts| as real);
    var d := Uniform(alts);
    assert d == UniformOver(alts, p);
    UniformOverContents(alts, p);
    assert HasKey(d, alts[0]);
    if Distinct(alts) {
      UniformOverKeys(alts, p);
      assert |d| == |alts|;
      UniformMass(d);
    }
  }

  /** `n` alternatives of probability `1/n` each add up to one. */
  lemma UniformMass(d: Dict<real>)
    requires |d| > 0
    requires forall i :: 0 <= i < |d| ==> d[i].val == 1.0 / (|d| as real)
    ensures Distribution(d)
  {
    MassOfConstant(d, 1.0 / (|d| as real), |d|);
    Reciprocal(|d|);
  }

  lemma Reciprocal(n: nat)
    requires n > 0
    ensures 1.0 / (n as real) > 0.0
    ensures (n as real) * (1.0 / (n as real)) == 1.0
  {
  }

  /** The initial search space: same choices in the same order, each uniform. */
  function InitialSpace(raw: RawSpace): (space: SearchSpace)
    ensures Keys(space) == Keys(raw)
    ensures forall i :: 0 <= i < |raw| ==> space[i].val == Uniform(raw[i].val)
  {
    seq(|raw|, i requires 0 <= i < |raw| => Item(raw[i].key, Uniform(raw[i].val)))
  }

  /** A configuration whose choices are all non-empty and duplicate-free yields a
      well-formed, normalised initial space. */
  lemma InitialSpaceWellFormed(raw: RawSpace)
    requires Valid(raw)
    requires forall i :: 0 <= i < |raw| ==> |raw[i].val| > 0 && Distinct(raw[i].val)
    ensures WellFormed(InitialSpace(raw))
    ensures Normalised(InitialSpace(raw))
  {
    var space := InitialSpace(raw);
    forall i | 0 <= i < |space|
      ensures Valid(space[i].val) && |space[i].val| > 0 && Distribution(space[i].val)
    {
      UniformIsDistribution(raw[i].val);
    }
  }

  /** The space offers alternative `alt` for choice `choice`. */
  predicate Offers(space: SearchSpace, choice: string, alt: string) {
    match Get(space, choice)
    case None => false
    case Some(m) => HasKey(m, alt)
  }
}

=== FILE: space_model.dfy ===
/** `update_search_space` (kbestsearch.py lines 77-102): every population entry adds
    its 1-based rank to each (choice, alternative) pair in its encoding, and the
    counts of each choice go through a softmax at the current temperature. */
module SpaceModel {
  import opened Wrappers
  import opened OrderedDict
  import opened Encoding
  import opened Selection
  import opened Space
  import opened Population

  /** `search_space_count[choice][alternative]`. */
  type Counts = Dict<Dict<int>>

  /** Distinct choices, distinct alternatives within each, none empty. */
  predicate CountsValid(counts: Counts) {
    && Valid(counts)
    && forall i :: 0 <= i < |counts| ==> Valid(counts[i].val) && |counts[i].val| > 0
  }

  /** `d[k]`, or 0 when the key is missing (the `try`/`except` of lines 87-90). */
  function ValueOr0(d: Dict<int>, k: string): int {
    match Get(d, k) case None => 0 case Some(x) => x
  }

  /** The alternatives counted for choice `c`, empty when it has no key. */
  function InnerOf(counts: Counts, c: string): (m: Dict<int>)
    ensures CountsValid(counts) ==> Valid(m)
    ensures CountsValid(counts) && HasKey(counts, c) ==> |m| > 0
  {
    match Get(counts, c)
    case None => []
    case Some(m) =>
      assert CountsValid(counts) ==> Valid(m) && |m| > 0 by {
        if CountsValid(counts) {
          var i := IndexOf(counts, c);
          assert Get(counts, c) == Some(counts[i].val);
        }
      }
      m
  }

  /** The count of a pair, 0 when it has no key. */
  function CountOf(counts: Counts, p: Pair): int {
    ValueOr0(InnerOf(counts, p.choice), p.alt)
  }

  /** The pair has a key in the counts. */
  predicate Present(counts: Counts, p: Pair) {
    HasKey(InnerOf(counts, p.choice), p.alt)
  }

  /** Sum of the first `n` values. */
  function IntPrefix(d: Dict<int>, n: nat): int
    requires n <= |d|
    decreases n
  {
    if n == 0 then 0 else IntPrefix(d, n - 1) + d[n - 1].val
  }

  function IntSum(d: Dict<int>): int {
    IntPrefix(d, |d|)
  }

  /** Sum of one choice's counts, 0 for an absent choice. */
  function ChoiceTotal(counts: Counts, c: string): int {
    IntSum(InnerOf(counts, c))
  }

  /** Two dictionaries whose values differ only at index `i`. */
  lemma {:induction false} IntPrefixChange(d1: Dict<int>, d2: Dict<int>, i: nat, n: nat)
    requires n <= |d1| && n <= |d2|
    requires forall j :: 0 <= j < n && j != i ==> d1[j].val == d2[j].val
    ensures IntPrefix(d2, n) == IntPrefix(d1, n) + if i < n then d2[i].val - d1[i].val else 0
    decreases n
  {
    if n > 0 {
      IntPrefixChange(d1, d2, i, n - 1);
    }
  }

  /** Sum after `m[a] = v`: the old value (or 0) is traded for `v`. */
  lemma IntSumPut(m: Dict<int>, a: string, v: int)
    requires Valid(m)
    ensures IntSum(Put(m, a, v)) == IntSum(m) - ValueOr0(m, a) + v
  {
    var r := Put(m, a, v);
    if HasKey(m, a) {
      var i := IndexOf(m, a);
      IntPrefixChange(m, r, i, |m|);
    } else {
      IntPrefixChange(m, r, |m|, |m|);
    }
  }

  /** Replacing one choice's inner dictionary. */
  lemma InnerAfterPut(counts: Counts, c: string, m: Dict<int>)
    requires CountsValid(counts)
    ensures forall c' :: InnerOf(Put(counts, c, m), c') == if c' == c then m else InnerOf(counts, c')
  {
    PutGet(counts, c, m);
  }

  /** One step of lines 85-90: `count[choice][alternative] += n`, creating the
      choice and the alternative when missing. */
  function Tally(counts: Counts, p: Pair, n: int): (r: Counts)
    requires CountsValid(counts)
    ensures CountsValid(r)
  {
    var inner := InnerOf(counts, p.choice);
    var updated := Put(inner, p.alt, ValueOr0(inner, p.alt) + n);
    PutGet(inner, p.alt, ValueOr0(inner, p.alt) + n);
    assert |updated| > 0 by {
      assert HasKey(updated, p.alt);
    }
    Put(counts, p.choice, updated)
  }

  /** What one step changes: the pair's count grows by `n` and gets a key, its
      choice's total grows by `n`, and nothing else moves. */
  lemma TallyEffect(counts: Counts, p: Pair, n: int)
    requires CountsValid(counts)
    ensures CountOf(Tally(counts, p, n), p) == CountOf(counts, p) + n
    ensures forall q :: q != p ==> CountOf(Tally(counts, p, n), q) == CountOf(counts, q)
    ensures forall q :: Present(Tally(counts, p, n), q) <==> Present(counts, q) || q == p
    ensures ChoiceTotal(Tally(counts, p, n), p.choice) == ChoiceTotal(counts, p.choice) + n
    ensures forall c :: c != p.choice ==> ChoiceTotal(Tally(counts, p, n), c) == ChoiceTotal(counts, c)
  {
    var inner := InnerOf(counts, p.choice);
    var v := ValueOr0(inner, p.alt) + n;
    var updated := Put(inner, p.alt, v);
    var r := Tally(counts, p, n);
    assert r == Put(counts, p.choice, updated);
    InnerAfterPut(counts, p.choice, updated);
    PutGet(inner, p.alt, v);
    IntSumPut(inner, p.alt, v);
    assert InnerOf(r, p.choice) == updated;
    forall q | q != p
      ensures CountOf(r, q) == CountOf(counts, q)
    {
      if q.choice != p.choice {
        assert InnerOf(r, q.choice) == InnerOf(counts, q.choice);
      }
    }
    forall q
      ensures Present(r, q) <==> Present(counts, q) || q == p
    {
      if q.choice != p.choice {
        assert InnerOf(r, q.choice) == InnerOf(counts, q.choice);
      }
    }
    forall c | c != p.choice
      ensures ChoiceTotal(r, c) == ChoiceTotal(counts, c)
    {
      assert InnerOf(r, c) == InnerOf(counts, c);
    }
  }

  /** Number of pairs for choice `c`. */
  function Hits(pairs: seq<Pair>, c: string): nat
    decreases |pairs|
  {
    if |pairs| == 0 then 0
    else Hits(pairs[..|pairs| - 1], c) + if pairs[|pairs| - 1].choice == c then 1 else 0
  }

  lemma MulSucc(n: int, k: int)
    ensures n * (k + 1) == n * k + n
  {
  }

  /** Lines 83-90 for one entry of rank `n`: every pair of the entry gains `n`. */
  function TallyAll(counts: Counts, pairs: seq<Pair>, n: int): (r: Counts)
    requires CountsValid(counts)
    ensures CountsValid(r)
    decreases |pairs|
  {
    if |pairs| == 0 then counts
    else Tally(TallyAll(counts, pairs[..|pairs| - 1], n), pairs[|pairs| - 1], n)
  }

  lemma MultisetSnoc(pairs: seq<Pair>, q: Pair)
    requires |pairs| > 0
    ensures multiset(pairs)[q] ==
      multiset(pairs[..|pairs| - 1])[q] + if pairs[|pairs| - 1] == q then 1 else 0
  {
    assert pairs == pairs[..|pairs| - 1] + [pairs[|pairs| - 1]];
  }

  lemma TallyCount(prev: Counts, p: Pair, n: int, q: Pair)
    requires CountsValid(prev)
    ensures CountOf(Tally(prev, p, n), q) == CountOf(prev, q) + if q == p then n else 0
  {
    TallyEffect(prev, p, n);
  }

  lemma TallyPresent(prev: Counts, p: Pair, n: int, q: Pair)
    requires CountsValid(prev)
    ensures Present(Tally(prev, p, n), q) <==> Present(prev, q) || q == p
  {
    TallyEffect(prev, p, n);
  }

  lemma TallyTotal(prev: Counts, p: Pair, n: int, c: string)
    requires CountsValid(prev)
    ensures ChoiceTotal(Tally(prev, p, n), c) == ChoiceTotal(prev, c) + if p.choice == c then n else 0
  {
    TallyEffect(prev, p, n);
  }

  /** One entry's contribution to every count: `n` per occurrence of the pair. */
  lemma {:induction false} TallyAllCounts(counts: Counts, pairs: seq<Pair>, n: int, q: Pair)
    requires CountsValid(counts)
    ensures CountOf(TallyAll(counts, pairs, n), q) == CountOf(counts, q) + n * multiset(pairs)[q]
    decreases |pairs|
  {
    if |pairs| > 0 {
      var init := pairs[..|pairs| - 1];
      var last := pairs[|pairs| - 1];
      TallyAllCounts(counts, init, n, q);
      TallyCount(TallyAll(counts, init, n), last, n, q);
      MultisetSnoc(pairs, q);
      if q == last {
        MulSucc(n, multiset(init)[q]);
      }
    }
  }

  /** Keys after one entry: exactly the old ones and the entry's pairs. */
  lemma {:induction false} TallyAllPresent(counts: Counts, pairs: seq<Pair>, n: int, q: Pair)
    requires CountsValid(counts)
    ensures Present(TallyAll(counts, pairs, n), q) <==> Present(counts, q) || q in pairs
    decreases |pairs|
  {
    if |pairs| > 0 {
      var init := pairs[..|pairs| - 1];
      var last := pairs[|pairs| - 1];
      TallyAllPresent(counts, init, n, q);
      TallyPresent(TallyAll(counts, init, n), last, n, q);
      MultisetSnoc(pairs, q);
    }
  }

  lemma HitsSnoc(pairs: seq<Pair>, c: string, n: int)
    requires |pairs| > 0
    ensures n * Hits(pairs, c) ==
      n * Hits(pairs[..|pairs| - 1], c) + if pairs[|pairs| - 1].choice == c then n else 0
  {
    if pairs[|pairs| - 1].choice == c {
      MulSucc(n, Hits(pairs[..|pairs| - 1], c));
    }
  }

  /** One entry adds `n` to a choice's total per pair of that choice. */
  lemma {:induction false} TallyAllTotals(counts: Counts, pairs: seq<Pair>, n: int, c: string)
    requires CountsValid(counts)
    ensures ChoiceTotal(TallyAll(counts, pairs, n), c) == ChoiceTotal(counts, c) + n * Hits(pairs, c)
    decreases |pairs|
  {
    if |pairs| > 0 {
      var init := pairs[..|pairs| - 1];
      var last := pairs[|pairs| - 1];
      TallyAllTotals(counts, init, n, c);
      TallyTotal(TallyAll(counts, init, n), last, n, c);
      HitsSnoc(pairs, c, n);
    }
  }

  /** Reference: the sum of the 1-based ranks of the entries holding `q`, each
      entry counted as often as it holds `q`. */
  function RankWeight(decoded: seq<seq<Pair>>, q: Pair): int
    decreases |decoded|
  {
    if |decoded| == 0 then 0
    else RankWeight(decoded[..|decoded| - 1], q) + |decoded| * multiset(decoded[|decoded| - 1])[q]
  }

  /** Reference: the sum over entries of rank times the entry's pairs for `c`. */
  function RankTotal(decoded: seq<seq<Pair>>, c: string): int
    decreases |decoded|
  {
    if |decoded| == 0 then 0
    else RankTotal(decoded[..|decoded| - 1], c) + |decoded| * Hits(decoded[|decoded| - 1], c)
  }

  /** Some entry holds the pair. */
  predicate Appears(decoded: seq<seq<Pair>>, q: Pair) {
    exists i :: 0 <= i < |decoded| && q in decoded[i]
  }

  /** The counting loop of lines 80-90 over the decoded population in order,
      the entry at position `i` weighing `i + 1`. */
  function TallyPopulation(decoded: seq<seq<Pair>>): (r: Counts)
    ensures CountsValid(r)
    decreases |decoded|
  {
    if |decoded| == 0 then []
    else TallyAll(TallyPopulation(decoded[..|decoded| - 1]), decoded[|decoded| - 1], |decoded|)
  }

  /** The counts of the population are the rank sums. */
  lemma {:induction false} TallyPopulationCounts(decoded: seq<seq<Pair>>, q: Pair)
    ensures CountOf(TallyPopulation(decoded), q) == RankWeight(decoded, q)
    decreases |decoded|
  {
    if |decoded| > 0 {
      var init := decoded[..|decoded| - 1];
      TallyPopulationCounts(init, q);
      TallyAllCounts(TallyPopulation(init), decoded[|decoded| - 1], |decoded|, q);
    }
  }

  /** A pair has a key exactly when some entry holds it. */
  lemma {:induction false} TallyPopulationPresent(decoded: seq<seq<Pair>>, q: Pair)
    ensures Present(TallyPopulation(decoded), q) <==> Appears(decoded, q)
    decreases |decoded|
  {
    if |decoded| > 0 {
      var init := decoded[..|decoded| - 1];
      TallyPopulationPresent(init, q);
      TallyAllPresent(TallyPopulation(init), decoded[|decoded| - 1], |decoded|, q);
      if Appears(init, q) {
        var i :| 0 <= i < |init| && q in init[i];
        assert decoded[i] == init[i];
      }
      if Appears(decoded, q) {
        var i :| 0 <= i < |decoded| && q in decoded[i];
        if i < |init| {
          assert decoded[i] == init[i];
        }
      }
    }
  }

  /** Each choice's total is the rank-weighted number of its pairs. */
  lemma {:induction false} TallyPopulationTotals(decoded: seq<seq<Pair>>, c: string)
    ensures ChoiceTotal(TallyPopulation(decoded), c) == RankTotal(decoded, c)
    decreases |decoded|
  {
    if |decoded| > 0 {
      var init := decoded[..|decoded| - 1];
      TallyPopulationTotals(init, c);
      TallyAllTotals(TallyPopulation(init), decoded[|decoded| - 1], |decoded|, c);
    }
  }

  /** When every entry has exactly one pair for choice `c`, that choice's counts
      add up to 1 + 2 + ... + k = k(k+1)/2. */
  lemma {:induction false} RankTotalTriangular(decoded: seq<seq<Pair>>, c: string)
    requires forall i :: 0 <= i < |decoded| ==> Hits(decoded[i], c) == 1
    ensures 2 * RankTotal(decoded, c) == |decoded| * (|decoded| + 1)
    decreases |decoded|
  {
    if |decoded| > 0 {
      var init := decoded[..|decoded| - 1];
      assert forall i :: 0 <= i < |init| ==> init[i] == decoded[i];
      RankTotalTriangular(init, c);
    }
  }

  /** Rank-weighted counts: the counts of the population are the rank sums, a
      pair has a key exactly when some entry holds it, and with one pair per
      choice in every entry each choice's counts total k(k+1)/2. */
  lemma CountsAreRankSums(decoded: seq<seq<Pair>>, q: Pair)
    ensures CountOf(TallyPopulation(decoded), q) == RankWeight(decoded, q)
    ensures Present(TallyPopulation(decoded), q) <==> Appears(decoded, q)
    ensures (forall i :: 0 <= i < |decoded| ==> Hits(decoded[i], q.choice) == 1) ==>
      2 * ChoiceTotal(TallyPopulation(decoded), q.choice) == |decoded| * (|decoded| + 1)
  {
    TallyPopulationCounts(decoded, q);
    TallyPopulationPresent(decoded, q);
    TallyPopulationTotals(decoded, q.choice);
    if forall i :: 0 <= i < |decoded| ==> Hits(decoded[i], q.choice) == 1 {
      RankTotalTriangular(decoded, q.choice);
    }
  }

  /** Why `update_search_space` raises: an encoding that does not split into
      `choice-alternative` pieces (ValueError), or a division by a zero
      temperature (ZeroDivisionError). */
  datatype Fault = MalformedEncoding | ZeroTemperature

  /** Every entry's string splits into `choice-alternative` pieces. */
  predicate AllDecode(pop: seq<Entry>) {
    forall i :: 0 <= i < |pop| ==> Decode(pop[i].text).Some?
  }

  /** Decodes every entry's string (lines 81-84); None if any fails. */
  function DecodeAll(pop: seq<Entry>): (r: Option<seq<seq<Pair>>>)
    ensures r.Some? <==> AllDecode(pop)
    ensures r.Some? ==> |r.value| == |pop|
    ensures r.Some? ==> forall i :: 0 <= i < |pop| ==> Decode(pop[i].text) == Some(r.value[i])
  {
    if AllDecode(pop) then
      Some(seq(|pop|, i requires 0 <= i < |pop| && AllDecode(pop) => Decode(pop[i].text).value))
    else None
  }

  /** A successful decoding yields one pair per piece. */
  lemma {:induction false} DecodePiecesLength(pieces: seq<string>)
    requires DecodePieces(pieces).Some?
    ensures |DecodePieces(pieces).value| == |pieces|
    decreases |pieces|
  {
    if |pieces| > 0 {
      DecodePiecesLength(pieces[..|pieces| - 1]);
    }
  }

  /** `exp(count / temperature)` for every alternative of one choice. */
  function Weights(tallies: Dict<int>, temperature: int, exp: real -> real): (w: Dict<real>)
    requires temperature != 0
    ensures Keys(w) == Keys(tallies)
  {
    seq(|tallies|, i requires 0 <= i < |tallies| =>
      Item(tallies[i].key, exp((tallies[i].val as real) / (temperature as real))))
  }

  /** Every weight divided by `total`. */
  function Scale(w: Dict<real>, total: real): (r: Dict<real>)
    requires total != 0.0
    ensures Keys(r) == Keys(w)
  {
    seq(|w|, i requires 0 <= i < |w| => Item(w[i].key, w[i].val / total))
  }

  lemma {:induction false} PrefixScale(w: Dict<real>, total: real, n: nat)
    requires total != 0.0 && n <= |w|
    ensures PrefixSum(Scale(w, total), n) == PrefixSum(w, n) / total
    decreases n
  {
    if n > 0 {
      PrefixScale(w, total, n - 1);
    }
  }

  lemma {:induction false} PositivePrefix(w: Dict<real>, n: nat)
    requires 0 < n <= |w|
    requires forall i :: 0 <= i < |w| ==> w[i].val > 0.0
    ensures PrefixSum(w, n) > 0.0
    decreases n
  {
    if n > 1 {
      PositivePrefix(w, n - 1);
    }
  }

  /** Dividing positive weights by their total gives a distribution of
      positive probabilities. */
  lemma ScaleByMass(w: Dict<real>)
    requires |w| > 0
    requires forall i :: 0 <= i < |w| ==> w[i].val > 0.0
    ensures Mass(w) > 0.0
    ensures Distribution(Scale(w, Mass(w)))
    ensures forall i :: 0 <= i < |w| ==> Scale(w, Mass(w))[i].val > 0.0
  {
    PositivePrefix(w, |w|);
    var total := Mass(w);
    var r := Scale(w, total);
    forall i | 0 <= i < |w|
      ensures r[i].val > 0.0
    {
      assert r[i].val == w[i].val / total;
    }
    PrefixScale(w, total, |w|);
    assert Mass(r) == total / total;
    assert total / total == 1.0;
  }

  /** Softmax of one choice's counts (lines 95-100): the same alternatives in the
      same order, each with a positive probability, the probabilities summing to
      one, and equal counts getting equal probabilities. */
  function Softmax(tallies: Dict<int>, temperature: int, exp: real -> real): (probs: Dict<real>)
    requires temperature != 0
    requires forall x :: exp(x) > 0.0
    ensures Keys(probs) == Keys(tallies)
    ensures |tallies| > 0 ==> Distribution(probs)
    ensures forall i :: 0 <= i < |probs| ==> probs[i].val > 0.0
    ensures forall i, j :: 0 <= i < |tallies| && 0 <= j < |tallies| && tallies[i].val == tallies[j].val ==>
      probs[i].val == probs[j].val
  {
    var w := Weights(tallies, temperature, exp);
    if |w| == 0 then []
    else
      ScaleByMass(w);
      Scale(w, Mass(w))
  }

  /** The population holds pair (choice, alt) in some entry's encoding. */
  ghost predicate InPopulation(pop: seq<Entry>, choice: string, alt: string) {
    exists i :: 0 <= i < |pop| && Decode(pop[i].text).Some? && Pair(choice, alt) in Decode(pop[i].text).value
  }

  /** Softmax applied to every choice of the counts, in the counts' order. */
  function SoftmaxAll(counts: Counts, temperature: int, exp: real -> real): (space: SearchSpace)
    requires CountsValid(counts)
    requires temperature != 0
    requires forall x :: exp(x) > 0.0
    ensures |space| == |counts|
    ensures forall i :: 0 <= i < |counts| ==>
      && space[i].key == counts[i].key
      && Keys(space[i].val) == Keys(counts[i].val)
      && Distribution(space[i].val)
  {
    seq(|counts|, i requires 0 <= i < |counts| =>
      Item(counts[i].key, Softmax(counts[i].val, temperature, exp)))
  }

  /** `update_search_space(population, temperature)`: a ValueError for an entry
      whose string does not decode, a ZeroDivisionError for temperature 0 on a
      non-empty population, and otherwise a well-formed, normalised space that
      offers exactly the pairs found in the population. */
  function UpdateSearchSpace(pop: seq<Entry>, temperature: int, exp: real -> real): (r: Result<SearchSpace, Fault>)
    requires forall x :: exp(x) > 0.0
    ensures r == Failure(MalformedEncoding) <==> exists i :: 0 <= i < |pop| && Decode(pop[i].text).None?
    ensures r == Failure(ZeroTemperature) <==>
      (forall i :: 0 <= i < |pop| ==> Decode(pop[i].text).Some?) && |pop| > 0 && temperature == 0
    ensures r.Success? ==> WellFormed(r.value) && Normalised(r.value)
    ensures r.Success? ==> forall c, a :: Offers(r.value, c, a) <==> InPopulation(pop, c, a)
  {
    match DecodeAll(pop)
    case None => Failure(MalformedEncoding)
    case Some(decoded) =>
      var counts := TallyPopulation(decoded);
      NonEmptyCounts(pop, decoded);
      if |counts| == 0 then
        SpaceWellFormed(counts, []);
        SpaceOffers(pop, decoded, []);
        Success([])
      else if temperature == 0 then Failure(ZeroTemperature)
      else
        var space := SoftmaxAll(counts, temperature, exp);
        SpaceWellFormed(counts, space);
        SpaceOffers(pop, decoded, space);
        Success(space)
  }

  /** Decoded entries always tally to at least one choice. */
  lemma NonEmptyCounts(pop: seq<Entry>, decoded: seq<seq<Pair>>)
    requires DecodeAll(pop) == Some(decoded)
    ensures |TallyPopulation(decoded)| > 0 <==> |pop| > 0
  {
    if |pop| > 0 {
      var ps := decoded[0];
      DecodePiecesLength(Split(pop[0].text, PairSep));
      var q := ps[0];
      TallyPopulationPresent(decoded, q);
      assert Appears(decoded, q);
      var m := InnerOf(TallyPopulation(decoded), q.choice);
      assert HasKey(m, q.alt);
    }
  }

  /** A space with the counts' choices and alternatives, each normalised. */
  lemma SpaceWellFormed(counts: Counts, space: SearchSpace)
    requires CountsValid(counts)
    requires |space| == |counts|
    requires forall i :: 0 <= i < |counts| ==>
      && space[i].key == counts[i].key
      && Keys(space[i].val) == Keys(counts[i].val)
      && Distribution(space[i].val)
    ensures WellFormed(space) && Normalised(space)
  {
    assert Keys(space) == Keys(counts);
    SameKeys(space, counts, "");
    forall i | 0 <= i < |space|
      ensures Valid(space[i].val) && |space[i].val| > 0
    {
      SameKeys(space[i].val, counts[i].val, "");
    }
  }

  /** `space` has the choices of `counts` in the same order, each with the same
      alternatives. */
  predicate Mirrors(space: SearchSpace, counts: Counts) {
    && |space| == |counts|
    && forall i :: 0 <= i < |counts| ==>
         space[i].key == counts[i].key && Keys(space[i].val) == Keys(counts[i].val)
  }

  /** Such a space offers exactly the pairs some population entry holds. */
  lemma SpaceOffers(pop: seq<Entry>, decoded: seq<seq<Pair>>, space: SearchSpace)
    requires DecodeAll(pop) == Some(decoded)
    requires Mirrors(space, TallyPopulation(decoded))
    ensures forall c, a :: Offers(space, c, a) <==> InPopulation(pop, c, a)
  {
    forall c, a
      ensures Offers(space, c, a) <==> InPopulation(pop, c, a)
    {
      OffersPair(pop, decoded, space, c, a);
    }
  }

  lemma OffersPair(pop: seq<Entry>, decoded: seq<seq<Pair>>, space: SearchSpace, c: string, a: string)
    requires DecodeAll(pop) == Some(decoded)
    requires Mirrors(space, TallyPopulation(decoded))
    ensures Offers(space, c, a) <==> InPopulation(pop, c, a)
  {
    var counts := TallyPopulation(decoded);
    assert Keys(space) == Keys(counts);
    OffersPresent(counts, space, c, a);
    TallyPopulationPresent(decoded, Pair(c, a));
    AppearsInPopulation(pop, decoded, Pair(c, a));
  }

  /** A space with the counts' keys offers exactly the counted pairs. */
  lemma OffersPresent(counts: Counts, space: SearchSpace, c: string, a: string)
    requires |space| == |counts|
    requires Keys(space) == Keys(counts)
    requires forall i :: 0 <= i < |counts| ==> Keys(space[i].val) == Keys(counts[i].val)
    ensures Offers(space, c, a) <==> Present(counts, Pair(c, a))
  {
    SameKeys(space, counts, c);
    var i := IndexOf(counts, c);
    if i >= 0 {
      SameKeys(space[i].val, counts[i].val, a);
      assert InnerOf(counts, c) == counts[i].val;
    }
  }

  /** The decoded population holds a pair exactly when some entry's string
      decodes to a candidate holding it. */
  lemma AppearsInPopulation(pop: seq<Entry>, decoded: seq<seq<Pair>>, q: Pair)
    requires DecodeAll(pop) == Some(decoded)
    ensures Appears(decoded, q) <==> InPopulation(pop, q.choice, q.alt)
  {
    if InPopulation(pop, q.choice, q.alt) {
      var j :| 0 <= j < |pop| && Decode(pop[j].text).Some? && Pair(q.choice, q.alt) in Decode(pop[j].text).value;
      assert q in decoded[j];
    }
    if Appears(decoded, q) {
      var j :| 0 <= j < |decoded| && q in decoded[j];
      assert Decode(pop[j].text) == Some(decoded[j]);
    }
  }
}

=== FILE: wrappers.dfy ===
/** Option and Result datatypes used throughout the model. */
module Wrappers {

  /** A value that may be absent, standing for Python's `None`. */
  datatype Option<+T> = None | Some(value: T)

  /** Either a value or the error that aborted the computation. */
  datatype Result<+T, +E> = Success(value: T) | Failure(error: E)
}
